=== FILE: README.md ===
# api_yamdb core in Dafny

A model of the identity and review core of the YaMDB REST service. Users sign up with a username and an e-mail and receive a confirmation code by mail. They exchange that code for an access token. They can read and edit their own profile at `/users/me`. They score and review titles and comment on reviews. A title shows the mean of its scores as its rating. Deleting a record cascades the way the Django models declare.

The database is a value of type `Database.Store`: six tables, each a map from primary key to record plus the next auto-increment key (`Tables.Table`). Every handler is a pure function from the store and the request to a response and the new store. `Database.Valid` collects the invariants that the modelled handlers maintain:
- usernames and e-mails are unique (database constraints) and well-formed (validators that run before a save);
- slugs are unique (a database constraint) and at most 50 characters;
- scores lie within the bounds checked by the score validators;
- a (title, author) pair has at most one review. The `UniqueConstraint` at api_yamdb/reviews/models.py:135-139 is a bare expression inside `Meta`, not an entry of `constraints`, so the database does not enforce it. Only `Serializers.ValidateReview` keeps this rule, and only on POST;
- every foreign key is stored (database constraints).

Every deletion and every handler preserves `Valid`, with signup run with the corrected username pattern. `Views.Signup` takes the username pattern as a parameter. `PrefixPattern` is the serializer as written, which can store a username outside the rules (see Findings). `FullPattern` is the corrected pattern.

The opaque collaborators of the authentication views are parameters, bundled in `Tokens.TokenService`:
- the confirmation-code generator (`make`, `check`);
- the access-token signer (`mint`).

They see a user only through `Tokens.PrincipalOf`, which blanks the stored confirmation code, because neither reads that column. The current year is a parameter. The score bounds (`MIN_SCORE`, `MAX_SCORE` in the settings) are a `Records.ScoreBounds` parameter.

Modules, in dependency order:
- `Base`: `Option` and `Result`.
- `Text`: character classes, `lower`, integer text.
- `Http`: JSON values, responses, field-keyed error maps.
- `Users` and `Records`: the record shapes and field limits.
- `Tables` and `Database`: the store, the invariants its handlers maintain and the cascading deletions.
- `ApiValidators` and `ReviewValidators`: the two stand-alone validators.
- `Tokens`: the opaque collaborators.
- `Ratings`: the rating.
- `Serializers`: request validation.
- `Views`: the handlers.

## Model

| member | source | states |
|---|---|---|
| Users.ParseRole | api_yamdb/users/models.py:7-15 | a role name is accepted exactly when it is `user`, `moderator` or `admin`, and the parsed role prints back as the same name |
| Users.RoleNameRoundTrip | api_yamdb/users/models.py:11-15 | the name every role is stored under parses back to that role, so no stored role is lost |
| Users.OneRolePredicate | api_yamdb/users/models.py:71-81 | exactly one of `is_admin`, `is_moderator`, `is_user` holds of any user |
| Users.NewUser | api_yamdb/users/models.py:45-62 | a freshly created user has role `user`, is neither admin nor moderator, is not a superuser and holds the code `none_code` |
| ApiValidators.IsUsernameNotMe | api_yamdb/api/validators.py:4-11 | rejects exactly the names whose lower-case form is `me`, with the message keyed to `username`; any other name comes back unchanged |
| ApiValidators.IsUsernameNotMeRejects | api_yamdb/api/validators.py:7-10 | the rejected names are exactly `me`, `Me`, `mE` and `ME` |
| ApiValidators.IsUsernameNotMeIdempotent | api_yamdb/api/validators.py:11 | an accepted name fed back in is accepted again, with the same result |
| ReviewValidators.YearValidator | api_yamdb/reviews/validators.py:5-7 | accepts exactly `0 <= year <= currentYear`, both bounds inclusive; a rejection carries the year |
| Serializers.ValidateYear | api_yamdb/api/serializers.py:131-141 | `validate_year` on its own accepts exactly the years the model validator accepts; it tests for a future year before a negative one |
| Serializers.YearFieldErrorsContents | api_yamdb/reviews/models.py:73-76 | the generated `year` field's validators report nothing exactly when the year lies between 0 and the current year and within the column range. An out-of-range year is reported first with the `year_validator` message. The minimum-value message appears exactly for a negative year, and neither of `validate_year`'s messages is ever among them |
| Serializers.ValidateTitleYear | api_yamdb/reviews/models.py:73-76 | the generated `year` field runs `year_validator` and the column's range checks first, collecting every message, and `validate_year` only afterwards. A year is accepted exactly when it lies between 0 and the current year and within the column range. A year outside 0 to the current year is reported first with the `year_validator` message, and a negative year also gets the minimum-value message. Neither of `validate_year`'s two messages can reach the response |
| Serializers.SignupValidate | api_yamdb/api/serializers.py:19-46 | signup data is accepted exactly when both fields pass. An accepted username is well-formed, at most 150 characters, not `me` in any case, and not taken. An accepted e-mail is well-formed, at most 254 characters, and not taken. A taken username or e-mail is reported under its own key with the uniqueness message. Errors are keyed only to `username` and `email` |
| Serializers.SignupValidateAsWritten | api_yamdb/api/serializers.py:21-25 | with the unanchored pattern, only the first character of an accepted username is checked against `[\w.@+-]` |
| Serializers.SignupAsWrittenAdmitsMalformedUsername | api_yamdb/api/serializers.py:23 | the as-written signup check accepts the username `a!` with the e-mail `a@example.com` on an empty store, although the user model's pattern forbids `a!`; the corrected check rejects it |
| Serializers.TokenValidate | api_yamdb/api/serializers.py:49-59 | a token request is valid exactly when both fields are present and non-blank and the username has at most 150 characters; each missing or bad field is reported under its own key |
| Serializers.ValidateRole | api_yamdb/api/serializers.py:69-74 | a role value is accepted exactly when it is one of the three choices, and the result prints back as that value; anything else yields the invalid-choice message |
| Serializers.ValidateProfile | api_yamdb/api/serializers.py:62-83 | a partial profile update is accepted exactly when every present field passes its rules. The updated record takes the present fields and keeps the others. The role changes only through the writable-role serializer. An allowed record stays allowed. A role error arises only when the role is writable |
| Serializers.ReviewFields | api_yamdb/reviews/models.py:114-133 | review data is accepted exactly when `text` is non-blank and `score` parses to an integer within the bounds; the result carries that text and score |
| Serializers.CommentFields | api_yamdb/reviews/models.py:156 | comment data is accepted exactly when `text` is present and non-blank |
| Serializers.ValidateReview | api_yamdb/api/serializers.py:156-166 | a missing title is a 404. A POST by an author who already reviewed the title is refused. Other methods skip the duplicate check |
| Database.DeleteReview | api_yamdb/reviews/models.py:150-155 | deleting a review removes it and exactly the comments on it; every remaining row and every other table is unchanged |
| Database.DeleteTitle | api_yamdb/reviews/models.py:109-113 | deleting a title removes exactly its reviews and the comments on those reviews, and nothing else |
| Database.DeleteUser | api_yamdb/reviews/models.py:115-120 | deleting a user removes exactly their reviews, their comments, and the comments on their removed reviews, and nothing else |
| Database.DeleteCategory | api_yamdb/reviews/models.py:86-92 | deleting a category keeps every title, nulls exactly the category references to it, and changes nothing else in any title |
| Database.DeleteGenre | api_yamdb/reviews/models.py:81-85 | deleting a genre keeps every title and removes only that genre from each title's genre set |
| Database.DeleteReviewPreservesValid | api_yamdb/reviews/models.py:4 | deleting a review leaves a store that satisfies every invariant of `Valid` |
| Database.DeleteTitlePreservesValid | api_yamdb/reviews/models.py:3 | deleting a title keeps every invariant of `Valid`; in particular no review or comment is left pointing at a removed row |
| Database.DeleteUserPreservesValid | api_yamdb/reviews/models.py:2 | deleting a user keeps every invariant of `Valid`; in particular no review or comment is left pointing at a removed row |
| Database.DeleteCategoryPreservesValid | api_yamdb/reviews/models.py:5 | deleting a category keeps every invariant of `Valid`; in particular every title's category is null or stored |
| Database.DeleteGenrePreservesValid | api_yamdb/reviews/models.py:6 | deleting a genre keeps every invariant of `Valid`; in particular every title's genres are stored |
| Ratings.Rating | api_yamdb/api/serializers.py:105-107 | the rating is absent exactly when the title has no reviews; otherwise it counts at least one score |
| Ratings.RatingWithinBounds | api_yamdb/api/serializers.py:105-107 | in a valid store the mean lies between the minimum and the maximum score |
| Ratings.RatingOfThreeAndFive | api_yamdb/api/serializers.py:106-107 | a title with the scores 3 and 5 is rated exactly 4 |
| Views.Signup | api_yamdb/api/views.py:55-75 | a registered (username, e-mail) pair is echoed with status 200, and nothing is stored or mailed. Otherwise the data is checked with the given username pattern: the unanchored one as written, or the corrected one. Invalid data gives a 400 and changes nothing. Otherwise exactly one user is added with the default role; its code is made by the generator and stored on it. The letter carries that code. The response carries only the username and the e-mail |
| Views.MissingFieldNeverEchoes | api_yamdb/api/views.py:68-70 | in a valid store, a request missing either field never matches a registered pair, so it always reaches validation |
| Views.SignupPreservesValid | api_yamdb/api/views.py:71-74 | signup with the corrected username pattern keeps usernames and e-mails unique and well-formed, and keeps every other invariant of `Valid` |
| Views.SignupAsWrittenStoresMalformedUsername | api_yamdb/api/views.py:71-75 | run as written on an empty store, signup answers 200 to `a!`, stores it and mails a code, and the resulting store breaks the username rule; with the corrected pattern the same request gives a 400 and stores nothing |
| Views.UserIdByName | api_yamdb/api/views.py:93 | the lookup fails exactly when no user holds the name; otherwise it finds a user holding it |
| Views.Token | api_yamdb/api/views.py:78-98 | invalid data gives a 400 with field errors. An unknown username gives a 404. Otherwise the response is 200 with a token minted for the user exactly when the generator accepts the code; if it does not, the response is the `Invalid token` 400 |
| Views.TokenForRegisteredUser | api_yamdb/api/views.py:93-98 | with unique usernames, the exchange answers for the one user who holds the submitted name |
| Views.TokenIgnoresStoredCode | api_yamdb/api/views.py:94 | overwriting any user's stored confirmation code does not change any exchange's response |
| Views.SignupThenToken | api_yamdb/api/views.py:28-33 | with a generator that accepts its own non-empty codes, the code mailed at signup is exchanged for a token for the new user |
| Views.Me | api_yamdb/api/views.py:110-136 | GET never changes the store and renders the caller. PATCH changes only the caller's record and only on success. A successful PATCH stores the record the profile check produced, so it carries every submitted field. A caller who is neither admin nor superuser keeps their role; an admin or superuser who sends a role gets exactly that role. Other methods give DRF's 405 response naming the method |
| Views.MePreservesValid | api_yamdb/api/views.py:118-131 | a profile update keeps usernames and e-mails unique and well-formed, and keeps every other invariant of `Valid` |
| Views.CreateReview | api_yamdb/api/views.py:178-186 | a review is created exactly when the fields pass, the title exists and the requester has not reviewed it. The new review's author is the requester, its title is the one from the URL, and its text and score are the validated ones. A failure changes nothing and gives the matching 400 or 404 |
| Views.CreateReviewIgnoresSubmittedOwner | api_yamdb/api/serializers.py:154 | an `author` or `title` value in the request body changes neither the response nor the store |
| Views.CreateReviewPreservesValid | api_yamdb/api/views.py:185-186 | review creation keeps scores within the bounds, one review per author and title, and every reference stored |
| Views.RatingAfterInsert | api_yamdb/api/serializers.py:105-107 | adding a review adds its score to its own title's totals and leaves every other title's rating unchanged |
| Views.RatingAfterCreateReview | api_yamdb/api/views.py:185-186 | a created review adds its score and one to the count of its title's rating and changes no other title's rating |
| Views.CreateComment | api_yamdb/api/views.py:196-204 | a comment is created exactly when `text` passes and the review exists; it carries the requester and the review from the URL. A failure changes nothing |
| Views.CreateCommentPreservesValid | api_yamdb/api/views.py:203-204 | comment creation keeps every invariant of `Valid` |

## Left out

- E-mail delivery, JWT signing and the HMAC/timestamp internals of `default_token_generator` are not modelled: they are the opaque `make`/`check`/`mint` of `Tokens.TokenService`, and `Signup` returns the letter instead of sending it. Its greeting text is not modelled.
- `timezone.now()` is not modelled: the current year is a parameter.
- The float result of `Avg` is not modelled. The rating is the exact pair (sum, count), and `Ratings.MeanValue` is its real quotient.
- Unicode `\w` and `str.lower` are approximated on ASCII: letters, digits and `_`.
- DRF `CharField` whitespace trimming is not modelled. Request values reach the validators as sent.
- DRF's `ProhibitNullCharactersValidator` is not modelled. Every `CharField` refuses a value containing U+0000 with "Null characters are not allowed.". The model's field checks accept it. This affects the signup, token and profile fields and the review and comment `text`.
- Request bodies are maps from field names to strings (`Http.Body`). JSON `null`, numbers, booleans and nested values are not modelled. In particular, a PATCH to `/users/me` cannot clear `first_name` or `last_name` to null. The source allows this because both columns are `null=True` (api_yamdb/users/models.py:33-44).
- The e-mail format check is approximated as "exactly one `@` with text on both sides". Django's `EmailValidator` is stricter.
- Integer parsing of `score` is approximated: an optional sign followed by decimal digits. DRF also accepts surrounding whitespace and values like `5.0`.
- The `PositiveSmallIntegerField` range 0..32767 on `score` and the 255-character limit on `confirmation_code` are not modelled. The score bounds are parameters, and codes come from the opaque generator.
- `pub_date` is not modelled: no clock is modelled, so rows carry no timestamps and responses omit the field.
- Permissions (`permissions.py` is not part of this model), authentication, and the admin CRUD on users, titles, categories and genres are not modelled. The `/users/me` branch is modelled, with the requester given as a stored user.
- Title creation is not modelled beyond its year check (`Serializers.ValidateTitleYear`, built from `ReviewValidators.YearValidator` and `Serializers.ValidateYear`). The name and slug limits of categories and genres are kept only as the `SlugsValid` rule.
- Filters, search, pagination, URL routing and `import_csv.py` are not modelled.
- The exact-pair signup branch at api_yamdb/api/views.py:68-70 only echoes the request. It makes no new code, stores nothing and sends no letter, and `Views.Signup` states exactly that.
- Nothing consumes or clears a confirmation code. The exchange at api_yamdb/api/views.py:88-98 never writes the store. Whether a code stops checking after the user's record changes is up to the opaque `check`, which sees that record.
- Database.DeleteUser: weaker than "removes exactly the user's reviews and comments". Django's cascade from a removed review also removes other users' comments on it, so those comments go too.
- Serializers.ValidateYear: its two messages are never sent. Through the title serializer, every year it would refuse has already failed the field validators, as `Serializers.ValidateTitleYear` states. The function models `validate_year` alone.
- `validate_role` raising `status.HTTP_400_BAD_REQUEST` is unreachable. The role's choice field rejects any other value first, with the invalid-choice message, so the model has no branch for it.
- `CommentViewSet.get_review` looks the review up by `review_id` alone and ignores `title_id`. `Views.CreateComment` therefore takes no title.
- Concurrency and transaction atomicity are not modelled: each handler is one atomic step.

## Findings

| source | as written | input that shows it | evidently intended | confidence | as-written member | corrected member |
|---|---|---|---|---|---|---|
| api_yamdb/api/serializers.py:23 | the signup username pattern `^[\w.@+-]` has no `+$`, so a search checks only the first character. The field overrides the model field, so the model's validator never runs, and `save()` stores the name | `{"username": "a!", "email": "a@example.com"}` on an empty store is accepted, `a!` is stored and a code is mailed | the user model's pattern `^[\w.@+-]+$` (api_yamdb/users/models.py:10), so every character must be a word character or one of `.@+-` | not executed; high | Views.SignupAsWrittenStoresMalformedUsername | Views.SignupPreservesValid |

=== FILE: base.dfy ===
/** Outcome shapes shared by every module of the model. */
module Base {

  /** A value that may be absent: a nullable column, a missing request field. */
  datatype Option<+T> = None | Some(value: T)

  /** A validation outcome: the cleaned value, or the errors that stopped it. */
  datatype Result<+T, +E> = Ok(value: T) | Err(error: E)
}

=== FILE: database.dfy ===
/**
 * The whole persistent state as one value, the invariants its handlers maintain, and the
 * `on_delete` behaviour of every foreign key.
 */
module Database {
  import opened Base
  import opened Tables
  import opened Users
  import opened Records

  datatype Store = Store(
    users: Table<User>,
    categories: Table<Category>,
    genres: Table<Genre>,
    titles: Table<Title>,
    reviews: Table<Review>,
    comments: Table<Comment>)

  function EmptyStore(): Store {
    Store(Empty(), Empty(), Empty(), Empty(), Empty(), Empty())
  }

  predicate UsernameTaken(s: Store, name: string) {
    exists k :: k in s.users.rows && s.users.rows[k].username == name
  }

  predicate EmailTaken(s: Store, email: string) {
    exists k :: k in s.users.rows && s.users.rows[k].email == email
  }

  predicate HasReviews(s: Store, title: nat) {
    exists k :: k in s.reviews.rows && s.reviews.rows[k].title == title
  }

  predicate HasReviewed(s: Store, title: nat, author: nat) {
    exists k :: k in s.reviews.rows && s.reviews.rows[k].title == title && s.reviews.rows[k].author == author
  }

  /** Field limits of every user, and the `unique=True` username and e-mail columns. */
  predicate UsersValid(users: Table<User>) {
    && (forall k :: k in users.rows ==> RecordAllowed(users.rows[k]))
    && (forall i, j :: i in users.rows && j in users.rows && i != j ==>
          users.rows[i].username != users.rows[j].username)
    && (forall i, j :: i in users.rows && j in users.rows && i != j ==>
          users.rows[i].email != users.rows[j].email)
  }

  /** Category and genre slugs are unique and at most fifty characters. */
  predicate SlugsValid(categories: Table<Category>, genres: Table<Genre>) {
    && (forall k :: k in categories.rows ==> |categories.rows[k].slug| <= MaxSlugLength)
    && (forall i, j :: i in categories.rows && j in categories.rows && i != j ==>
          categories.rows[i].slug != categories.rows[j].slug)
    && (forall k :: k in genres.rows ==> |genres.rows[k].slug| <= MaxSlugLength)
    && (forall i, j :: i in genres.rows && j in genres.rows && i != j ==>
          genres.rows[i].slug != genres.rows[j].slug)
  }

  /** Every stored score passed the minimum and maximum validators. */
  predicate ScoresValid(reviews: Table<Review>, b: ScoreBounds) {
    forall k :: k in reviews.rows ==> ScoreAllowed(b, reviews.rows[k].score)
  }

  /** At most one review per (title, author) pair. */
  predicate OneReviewPerAuthor(reviews: Table<Review>) {
    forall i, j :: i in reviews.rows && j in reviews.rows && i != j ==>
      reviews.rows[i].title != reviews.rows[j].title || reviews.rows[i].author != reviews.rows[j].author
  }

  /** A title's category is null or stored, and its genres are stored. */
  predicate TitleReferencesValid(s: Store) {
    && (forall k :: k in s.titles.rows && s.titles.rows[k].category.Some? ==>
          s.titles.rows[k].category.value in s.categories.rows)
    && (forall k :: k in s.titles.rows ==> s.titles.rows[k].genres <= s.genres.rows.Keys)
  }

  /** A review's title and author are stored. */
  predicate ReviewReferencesValid(s: Store) {
    forall k :: k in s.reviews.rows ==>
      s.reviews.rows[k].title in s.titles.rows && s.reviews.rows[k].author in s.users.rows
  }

  /** A comment's review and author are stored. */
  predicate CommentReferencesValid(s: Store) {
    forall k :: k in s.comments.rows ==>
      s.comments.rows[k].review in s.reviews.rows && s.comments.rows[k].author in s.users.rows
  }

  /** The invariants every handler of the model keeps; several are validator rules, not database constraints. */
  predicate Valid(s: Store, b: ScoreBounds) {
    && UsersValid(s.users)
    && SlugsValid(s.categories, s.genres)
    && ScoresValid(s.reviews, b)
    && OneReviewPerAuthor(s.reviews)
    && TitleReferencesValid(s)
    && ReviewReferencesValid(s)
    && CommentReferencesValid(s)
  }

  /** `t'` keeps some rows of `t`, each unchanged. */
  predicate SubTable<T(==)>(t': Table<T>, t: Table<T>) {
    forall k :: k in t'.rows ==> k in t.rows && t'.rows[k] == t.rows[k]
  }

  lemma UsersSubTable(users': Table<User>, users: Table<User>)
    requires SubTable(users', users) && UsersValid(users)
    ensures UsersValid(users')
  {
  }

  lemma ReviewsSubTable(reviews': Table<Review>, reviews: Table<Review>, b: ScoreBounds)
    requires SubTable(reviews', reviews) && ScoresValid(reviews, b) && OneReviewPerAuthor(reviews)
    ensures ScoresValid(reviews', b) && OneReviewPerAuthor(reviews')
  {
  }

  lemma EmptyStoreValid(b: ScoreBounds)
    ensures Valid(EmptyStore(), b)
  {
  }

  /** Deleting a review (`on_delete=CASCADE` from comment to review) removes exactly its comments. */
  function DeleteReview(s: Store, r: nat): (s': Store)
    ensures s'.reviews.rows.Keys == s.reviews.rows.Keys - {r}
    ensures forall k :: k in s'.comments.rows <==> k in s.comments.rows && s.comments.rows[k].review != r
    ensures forall k :: k in s'.reviews.rows ==> s'.reviews.rows[k] == s.reviews.rows[k]
    ensures forall k :: k in s'.comments.rows ==> s'.comments.rows[k] == s.comments.rows[k]
    ensures s' == s.(reviews := s'.reviews, comments := s'.comments)
  {
    var doomed := set k | k in s.comments.rows && s.comments.rows[k].review == r;
    s.(reviews := Remove(s.reviews, {r}), comments := Remove(s.comments, doomed))
  }

  /** Deleting a title removes its reviews and, through them, their comments. */
  function DeleteTitle(s: Store, t: nat): (s': Store)
    ensures s'.titles.rows.Keys == s.titles.rows.Keys - {t}
    ensures forall k :: k in s'.reviews.rows <==> k in s.reviews.rows && s.reviews.rows[k].title != t
    ensures forall k :: k in s'.comments.rows <==>
      k in s.comments.rows && s.comments.rows[k].review !in s.reviews.rows - s'.reviews.rows.Keys
    ensures forall k :: k in s'.titles.rows ==> s'.titles.rows[k] == s.titles.rows[k]
    ensures forall k :: k in s'.reviews.rows ==> s'.reviews.rows[k] == s.reviews.rows[k]
    ensures forall k :: k in s'.comments.rows ==> s'.comments.rows[k] == s.comments.rows[k]
    ensures s' == s.(titles := s'.titles, reviews := s'.reviews, comments := s'.comments)
  {
    var reviews := set k | k in s.reviews.rows && s.reviews.rows[k].title == t;
    var comments := set k | k in s.comments.rows && s.comments.rows[k].review in reviews;
    s.(titles := Remove(s.titles, {t}),
       reviews := Remove(s.reviews, reviews),
       comments := Remove(s.comments, comments))
  }

  /**
   * Deleting a user removes the reviews and comments they wrote; each removed
   * review takes its comments with it, whoever wrote them.
   */
  function DeleteUser(s: Store, u: nat): (s': Store)
    ensures s'.users.rows.Keys == s.users.rows.Keys - {u}
    ensures forall k :: k in s'.reviews.rows <==> k in s.reviews.rows && s.reviews.rows[k].author != u
    ensures forall k :: k in s'.comments.rows <==>
      && k in s.comments.rows
      && s.comments.rows[k].author != u
      && s.comments.rows[k].review !in s.reviews.rows - s'.reviews.rows.Keys
    ensures forall k :: k in s'.users.rows ==> s'.users.rows[k] == s.users.rows[k]
    ensures forall k :: k in s'.reviews.rows ==> s'.reviews.rows[k] == s.reviews.rows[k]
    ensures forall k :: k in s'.comments.rows ==> s'.comments.rows[k] == s.comments.rows[k]
    ensures s' == s.(users := s'.users, reviews := s'.reviews, comments := s'.comments)
  {
    var reviews := set k | k in s.reviews.rows && s.reviews.rows[k].author == u;
    var comments := set k | k in s.comments.rows && (s.comments.rows[k].author == u || s.comments.rows[k].review in reviews);
    s.(users := Remove(s.users, {u}),
       reviews := Remove(s.reviews, reviews),
       comments := Remove(s.comments, comments))
  }

  /** Deleting a category (`on_delete=SET_NULL`) keeps every title and nulls the references to it. */
  function DeleteCategory(s: Store, c: nat): (s': Store)
    ensures s'.categories.rows.Keys == s.categories.rows.Keys - {c}
    ensures s'.titles.rows.Keys == s.titles.rows.Keys && s'.titles.next == s.titles.next
    ensures forall k :: k in s.titles.rows ==>
      s'.titles.rows[k].category == (if s.titles.rows[k].category == Some(c) then None else s.titles.rows[k].category)
    ensures forall k :: k in s.titles.rows ==> s'.titles.rows[k] == s.titles.rows[k].(category := s'.titles.rows[k].category)
    ensures s' == s.(categories := s'.categories, titles := s'.titles)
  {
    var titles := map k | k in s.titles.rows ::
      var t := s.titles.rows[k];
      if t.category == Some(c) then t.(category := None) else t;
    s.(categories := Remove(s.categories, {c}), titles := RawTable(titles, s.titles.next))
  }

  /** Deleting a genre keeps every title and drops only its many-to-many links. */
  function DeleteGenre(s: Store, g: nat): (s': Store)
    ensures s'.genres.rows.Keys == s.genres.rows.Keys - {g}
    ensures s'.titles.rows.Keys == s.titles.rows.Keys && s'.titles.next == s.titles.next
    ensures forall k :: k in s.titles.rows ==> s'.titles.rows[k].genres == s.titles.rows[k].genres - {g}
    ensures forall k :: k in s.titles.rows ==> s'.titles.rows[k] == s.titles.rows[k].(genres := s'.titles.rows[k].genres)
    ensures s' == s.(genres := s'.genres, titles := s'.titles)
  {
    var titles := map k | k in s.titles.rows ::
      var t := s.titles.rows[k];
      t.(genres := t.genres - {g});
    s.(genres := Remove(s.genres, {g}), titles := RawTable(titles, s.titles.next))
  }

  lemma DeleteReviewPreservesValid(s: Store, b: ScoreBounds, r: nat)
    requires Valid(s, b)
    ensures Valid(DeleteReview(s, r), b)
  {
    var s' := DeleteReview(s, r);
    ReviewsSubTable(s'.reviews, s.reviews, b);
    DeleteReviewKeepsReferences(s, r);
  }

  lemma DeleteReviewKeepsReferences(s: Store, r: nat)
    requires TitleReferencesValid(s) && ReviewReferencesValid(s) && CommentReferencesValid(s)
    ensures var s' := DeleteReview(s, r);
      TitleReferencesValid(s') && ReviewReferencesValid(s') && CommentReferencesValid(s')
  {
    var s' := DeleteReview(s, r);
    forall k | k in s'.comments.rows
      ensures s'.comments.rows[k].review in s'.reviews.rows
    {
      assert s'.comments.rows[k].review != r;
    }
  }

  lemma DeleteTitlePreservesValid(s: Store, b: ScoreBounds, t: nat)
    requires Valid(s, b)
    ensures Valid(DeleteTitle(s, t), b)
  {
    var s' := DeleteTitle(s, t);
    ReviewsSubTable(s'.reviews, s.reviews, b);
    DeleteTitleKeepsReferences(s, t);
  }

  lemma DeleteTitleKeepsReferences(s: Store, t: nat)
    requires TitleReferencesValid(s) && ReviewReferencesValid(s) && CommentReferencesValid(s)
    ensures var s' := DeleteTitle(s, t);
      TitleReferencesValid(s') && ReviewReferencesValid(s') && CommentReferencesValid(s')
  {
    var s' := DeleteTitle(s, t);
    forall k | k in s'.reviews.rows
      ensures s'.reviews.rows[k].title in s'.titles.rows
    {
      assert s'.reviews.rows[k].title != t;
    }
    forall k | k in s'.comments.rows
      ensures s'.comments.rows[k].review in s'.reviews.rows
    {
      assert s'.comments.rows[k].review in s.reviews.rows;
    }
  }

  lemma DeleteUserPreservesValid(s: Store, b: ScoreBounds, u: nat)
    requires Valid(s, b)
    ensures Valid(DeleteUser(s, u), b)
  {
    var s' := DeleteUser(s, u);
    UsersSubTable(s'.users, s.users);
    ReviewsSubTable(s'.reviews, s.reviews, b);
    DeleteUserKeepsReferences(s, u);
  }

  lemma DeleteUserKeepsReferences(s: Store, u: nat)
    requires TitleReferencesValid(s) && ReviewReferencesValid(s) && CommentReferencesValid(s)
    ensures var s' := DeleteUser(s, u);
      TitleReferencesValid(s') && ReviewReferencesValid(s') && CommentReferencesValid(s')
  {
    var s' := DeleteUser(s, u);
    forall k | k in s'.reviews.rows
      ensures s'.reviews.rows[k].author in s'.users.rows
    {
      assert s'.reviews.rows[k].author != u;
    }
    forall k | k in s'.comments.rows
      ensures s'.comments.rows[k].review in s'.reviews.rows && s'.comments.rows[k].author in s'.users.rows
    {
      assert s'.comments.rows[k].review in s.reviews.rows;
      assert s'.comments.rows[k].author != u;
    }
  }

  lemma DeleteCategoryPreservesValid(s: Store, b: ScoreBounds, c: nat)
    requires Valid(s, b)
    ensures Valid(DeleteCategory(s, c), b)
  {
    var s' := DeleteCategory(s, c);
    assert SlugsValid(s'.categories, s'.genres) by {
      assert SubTable(s'.categories, s.categories);
    }
    assert TitleReferencesValid(s') by {
      forall k | k in s'.titles.rows && s'.titles.rows[k].category.Some?
        ensures s'.titles.rows[k].category.value in s'.categories.rows
      {
        assert s'.titles.rows[k].category == s.titles.rows[k].category;
      }
      forall k | k in s'.titles.rows
        ensures s'.titles.rows[k].genres <= s'.genres.rows.Keys
      {
        assert s'.titles.rows[k].genres == s.titles.rows[k].genres;
      }
    }
  }

  lemma DeleteGenrePreservesValid(s: Store, b: ScoreBounds, g: nat)
    requires Valid(s, b)
    ensures Valid(DeleteGenre(s, g), b)
  {
    var s' := DeleteGenre(s, g);
    assert SlugsValid(s'.categories, s'.genres) by {
      assert SubTable(s'.genres, s.genres);
    }
    assert TitleReferencesValid(s') by {
      forall k | k in s'.titles.rows && s'.titles.rows[k].category.Some?
        ensures s'.titles.rows[k].category.value in s'.categories.rows
      {
        assert s'.titles.rows[k].category == s.titles.rows[k].category;
      }
    }
  }
}

=== FILE: http.dfy ===
/** Request and response values of the REST endpoints. */
module Http {
  import opened Base

  /** A JSON document, as rendered by the serializers. */
  datatype Json =
    | JNull
    | JInt(n: int)
    | JStr(s: string)
    | JArr(items: seq<Json>)
    | JObj(fields: map<string, Json>)

  /** A request body: field name to submitted string. */
  type Body = map<string, string>

  /** Field-keyed validation messages, as `ValidationError.detail` holds them. */
  type Errors = map<string, seq<string>>

  datatype Method = GET | POST | PUT | PATCH | DELETE

  function MethodName(m: Method): string {
    match m
    case GET => "GET"
    case POST => "POST"
    case PUT => "PUT"
    case PATCH => "PATCH"
    case DELETE => "DELETE"
  }

  datatype Response = Response(status: nat, body: Json)

  const OK: nat := 200
  const CREATED: nat := 201
  const BAD_REQUEST: nat := 400
  const NOT_FOUND: nat := 404
  const METHOD_NOT_ALLOWED: nat := 405

  /** `request.data.get(key)`. */
  function Field(b: Body, key: string): (r: Option<string>)
    ensures r.Some? <==> key in b
    ensures r.Some? ==> r.value == b[key]
  {
    if key in b then Some(b[key]) else None
  }

  function Strings(ms: seq<string>): (j: Json)
    ensures j.JArr? && |j.items| == |ms|
    ensures forall i :: 0 <= i < |ms| ==> j.items[i] == JStr(ms[i])
  {
    JArr(seq(|ms|, i requires 0 <= i < |ms| => JStr(ms[i])))
  }

  /** The request data rendered back verbatim. */
  function Echo(b: Body): (j: Json)
    ensures j.JObj? && j.fields.Keys == b.Keys
  {
    JObj(map k | k in b :: JStr(b[k]))
  }

  /** The 400 response a failed `is_valid(raise_exception=True)` produces. */
  function Invalid(e: Errors): (r: Response)
    ensures r.status == BAD_REQUEST
    ensures r.body.JObj? && r.body.fields.Keys == e.Keys
  {
    Response(BAD_REQUEST, JObj(map k | k in e :: Strings(e[k])))
  }

  /** DRF's `MethodNotAllowed`: status 405 naming the refused method. */
  function MethodNotAllowed(m: Method): Response {
    Response(METHOD_NOT_ALLOWED, JObj(map["detail" := JStr("Method \"" + MethodName(m) + "\" not allowed.")]))
  }

  /** The 404 response of `get_object_or_404`. */
  const NotFound: Response := Response(NOT_FOUND, JObj(map["detail" := JStr("Not found.")]))

  /** Records the messages of one field, when there are any. */
  function AddErrors(e: Errors, key: string, messages: seq<string>): (r: Errors)
    ensures forall k :: k in r <==> k in e || (k == key && messages != [])
    ensures messages != [] ==> r[key] == messages
    ensures forall k :: k in e && k != key ==> r[k] == e[k]
  {
    if messages != [] then e[key := messages] else e
  }
}

=== FILE: ratings.dfy ===
/** The rating shown with a title: the mean of its review scores, computed exactly. */
module Ratings {
  import opened Base
  import opened Records
  import opened Database

  /** A mean kept as the exact pair (sum of scores, number of scores). */
  datatype Mean = Mean(sum: int, count: nat)

  function MeanValue(m: Mean): real
    requires m.count > 0
  {
    m.sum as real / m.count as real
  }

  /** Sum of the scores of the reviews of `title` among keys below `n`. */
  function ScoreSum(reviews: map<nat, Review>, title: nat, n: nat): int {
    if n == 0 then 0
    else
      var here := if n - 1 in reviews && reviews[n - 1].title == title then reviews[n - 1].score else 0;
      ScoreSum(reviews, title, n - 1) + here
  }

  /** Number of reviews of `title` among keys below `n`. */
  function ReviewCount(reviews: map<nat, Review>, title: nat, n: nat): nat {
    if n == 0 then 0
    else
      var here := if n - 1 in reviews && reviews[n - 1].title == title then 1 else 0;
      ReviewCount(reviews, title, n - 1) + here
  }

  /** The count is zero exactly when no review of the title lies below `n`. */
  lemma {:induction false} CountZeroIff(reviews: map<nat, Review>, title: nat, n: nat)
    ensures ReviewCount(reviews, title, n) == 0 <==>
      forall k :: k < n && k in reviews ==> reviews[k].title != title
  {
    if n > 0 {
      CountZeroIff(reviews, title, n - 1);
    }
  }

  /** A title without reviews below `n` has a zero sum. */
  lemma {:induction false} CountZeroSumZero(reviews: map<nat, Review>, title: nat, n: nat)
    ensures ReviewCount(reviews, title, n) == 0 ==> ScoreSum(reviews, title, n) == 0
  {
    if n > 0 {
      CountZeroSumZero(reviews, title, n - 1);
    }
  }

  /** `Avg('score')` over the title's reviews: none when it has no reviews. */
  function Rating(s: Store, title: nat): (r: Option<Mean>)
    ensures r.None? <==> !HasReviews(s, title)
    ensures r.Some? ==> r.value.count > 0
  {
    var count := ReviewCount(s.reviews.rows, title, s.reviews.next);
    CountZeroIff(s.reviews.rows, title, s.reviews.next);
    if count == 0 then None else Some(Mean(ScoreSum(s.reviews.rows, title, s.reviews.next), count))
  }

  /** Scores between the bounds give a sum between count times each bound. */
  lemma {:induction false} SumWithinBounds(reviews: map<nat, Review>, b: ScoreBounds, title: nat, n: nat)
    requires forall k :: k in reviews ==> ScoreAllowed(b, reviews[k].score)
    ensures b.min * ReviewCount(reviews, title, n) <= ScoreSum(reviews, title, n)
    ensures ScoreSum(reviews, title, n) <= b.max * ReviewCount(reviews, title, n)
  {
    if n > 0 {
      SumWithinBounds(reviews, b, title, n - 1);
      var c := ReviewCount(reviews, title, n - 1);
      if n - 1 in reviews && reviews[n - 1].title == title {
        assert b.min * (c + 1) == b.min * c + b.min;
        assert b.max * (c + 1) == b.max * c + b.max;
      }
    }
  }

  /** The rating of a title lies between the minimum and the maximum score. */
  lemma RatingWithinBounds(s: Store, b: ScoreBounds, title: nat)
    requires ScoresValid(s.reviews, b)
    ensures Rating(s, title).Some? ==>
      var m := Rating(s, title).value;
      b.min * m.count <= m.sum <= b.max * m.count && b.min as real <= MeanValue(m) <= b.max as real
  {
    var r := Rating(s, title);
    if r.Some? {
      var m := r.value;
      SumWithinBounds(s.reviews.rows, b, title, s.reviews.next);
      QuotientBounds(b.min, b.max, m.sum, m.count);
    }
  }

  lemma QuotientBounds(lo: int, hi: int, sum: int, count: nat)
    requires count > 0 && lo * count <= sum <= hi * count
    ensures lo as real <= sum as real / count as real <= hi as real
  {
    var c := count as real;
    assert (lo * count) as real == lo as real * c;
    assert (hi * count) as real == hi as real * c;
    assert lo as real * c <= sum as real <= hi as real * c;
  }

  /** Sums and counts below `n` depend only on the rows below `n`. */
  lemma {:induction false} TotalsFrame(reviews: map<nat, Review>, reviews': map<nat, Review>, title: nat, n: nat)
    requires forall k :: k < n ==> (k in reviews <==> k in reviews')
    requires forall k :: k < n && k in reviews ==> reviews[k] == reviews'[k]
    ensures ScoreSum(reviews, title, n) == ScoreSum(reviews', title, n)
    ensures ReviewCount(reviews, title, n) == ReviewCount(reviews', title, n)
  {
    if n > 0 {
      TotalsFrame(reviews, reviews', title, n - 1);
    }
  }

  /** A title with the two scores 3 and 5 is rated 4. */
  lemma RatingOfThreeAndFive(s: Store)
    requires s.reviews.next == 3
    requires s.reviews.rows == map[1 := Review(7, 1, "", 3), 2 := Review(7, 2, "", 5)]
    ensures Rating(s, 7) == Some(Mean(8, 2)) && MeanValue(Mean(8, 2)) == 4.0
  {
    var rows := s.reviews.rows;
    assert ScoreSum(rows, 7, 1) == 0 && ReviewCount(rows, 7, 1) == 0;
    assert ScoreSum(rows, 7, 2) == 3 && ReviewCount(rows, 7, 2) == 1;
    assert ScoreSum(rows, 7, 3) == 8 && ReviewCount(rows, 7, 3) == 2;
  }
}

=== FILE: records.dfy ===
/** Records of the catalogue: categories, genres, titles, reviews and comments. */
module Records {
  import opened Base

  const MaxSlugLength: nat := 50

  datatype Category = Category(name: string, slug: string)

  datatype Genre = Genre(name: string, slug: string)

  /** `category` is nullable; `genres` is the many-to-many link to genre keys. */
  datatype Title = Title(
    name: string,
    year: int,
    description: string,
    genres: set<nat>,
    category: Option<nat>)

  /** `title` and `author` are keys of a title and of a user. */
  datatype Review = Review(title: nat, author: nat, text: string, score: int)

  /** `review` and `author` are keys of a review and of a user. */
  datatype Comment = Comment(review: nat, author: nat, text: string)

  /** The `MIN_SCORE` and `MAX_SCORE` settings. */
  datatype ScoreBounds = ScoreBounds(min: int, max: int)

  predicate ScoreAllowed(b: ScoreBounds, score: int) {
    b.min <= score <= b.max
  }
}

=== FILE: serializers.dfy ===
/**
 * Input validation of the REST serializers: signup, token request, profile
 * update, title year and review. Each function returns the cleaned values or
 * the field-keyed messages a 400 response would carry.
 */
module Serializers {
  import opened Base
  import opened Http
  import Text
  import opened Users
  import opened Records
  import opened Database
  import ReviewValidators

  const RequiredMessage: string := "This field is required."
  const BlankMessage: string := "This field may not be blank."
  const UniqueMessage: string := "This field must be unique."
  const PatternMessage: string := "This value does not match the required pattern."
  const EmailMessage: string := "Enter a valid email address."
  const InvalidUsernameMessage: string := "invalid username"
  const EmailTooLongMessage: string := "email is too long."
  const IntegerMessage: string := "A valid integer is required."
  const UsernameRegexMessage: string := "Username should only contain letters, digits, and @/./+/-/_ characters."
  const UsernameUniqueMessage: string := "Пользователь with this username already exists."
  const EmailUniqueMessage: string := "Пользователь with this email already exists."
  const FutureYearMessage: string := "Произведение еще не написали. Вы указали будующий год."
  const NegativeYearMessage: string := "Год не может быть отрицательным."
  const DuplicateReviewMessage: string := "Вы уже оставляли отзыв!"

  function MaxLengthMessage(n: nat): string {
    "Ensure this field has no more than " + Text.IntToString(n) + " characters."
  }

  /** Django's range messages, which differ only in the comparison word. */
  function RangeMessage(relation: string, n: int): string {
    "Ensure this value is " + relation + " than or equal to " + Text.IntToString(n) + "."
  }

  function MaxValueMessage(n: int): string {
    RangeMessage("less", n)
  }

  function MinValueMessage(n: int): string {
    RangeMessage("greater", n)
  }

  function ChoiceMessage(input: string): string {
    "\"" + input + "\" is not a valid choice."
  }

  // ---------------------------------------------------------------- signup

  /** The signup username pattern as written (a prefix search) and as the user model declares it. */
  datatype UsernamePattern = PrefixPattern | FullPattern

  predicate Matches(p: UsernamePattern, name: string) {
    match p
    case PrefixPattern => Text.MatchesUsernamePrefix(name)
    case FullPattern => Text.MatchesUsernameFull(name)
  }

  /**
   * Messages for the signup `username` field: presence, then the uniqueness
   * and pattern validators together, then `validate_username`.
   */
  function SignupUsernameErrors(s: Store, v: Option<string>, p: UsernamePattern): seq<string> {
    match v
    case None => [RequiredMessage]
    case Some(name) =>
      if name == "" then [BlankMessage]
      else
        var checks := (if UsernameTaken(s, name) then [UniqueMessage] else [])
          + (if Matches(p, name) then [] else [PatternMessage]);
        if checks != [] then checks
        else if Text.Lower(name) == "me" || |name| > MaxUsernameLength then [InvalidUsernameMessage]
        else []
  }

  /** Messages for the signup `email` field: presence, uniqueness and shape, then `validate_email`. */
  function SignupEmailErrors(s: Store, v: Option<string>): seq<string> {
    match v
    case None => [RequiredMessage]
    case Some(email) =>
      if email == "" then [BlankMessage]
      else
        var checks := (if EmailTaken(s, email) then [UniqueMessage] else [])
          + (if Text.IsEmailShaped(email) then [] else [EmailMessage]);
        if checks != [] then checks
        else if |email| > MaxEmailLength then [EmailTooLongMessage]
        else []
  }

  /** The signup username rules, stated directly. */
  predicate SignupUsernameAccepted(s: Store, v: Option<string>, p: UsernamePattern) {
    && v.Some?
    && Matches(p, v.value)
    && !UsernameTaken(s, v.value)
    && !Text.IsReservedMe(v.value)
    && |v.value| <= MaxUsernameLength
  }

  /** The signup e-mail rules, stated directly. */
  predicate SignupEmailAccepted(s: Store, v: Option<string>) {
    v.Some? && Text.IsEmailShaped(v.value) && !EmailTaken(s, v.value) && |v.value| <= MaxEmailLength
  }

  lemma SignupUsernameErrorsEmpty(s: Store, v: Option<string>, p: UsernamePattern)
    ensures SignupUsernameErrors(s, v, p) == [] <==> SignupUsernameAccepted(s, v, p)
  {
  }

  lemma SignupEmailErrorsEmpty(s: Store, v: Option<string>)
    ensures SignupEmailErrors(s, v) == [] <==> SignupEmailAccepted(s, v)
  {
  }

  function SignupCheck(s: Store, body: Body, p: UsernamePattern): Result<(string, string), Errors> {
    var e0 := AddErrors(map[], "username",
      SignupUsernameErrors(s, Field(body, "username"), p));
    var errors := AddErrors(e0, "email",
      SignupEmailErrors(s, Field(body, "email")));
    if errors == map[] then
      assert "username" !in errors && "email" !in errors;
      Ok((body["username"], body["email"]))
    else Err(errors)
  }

  /**
   * `SignupSerializer.is_valid()` with the username pattern anchored at both
   * ends, as the user model declares it (see the finding in the README).
   */
  function SignupValidate(s: Store, body: Body): (r: Result<(string, string), Errors>)
    ensures r.Ok? <==>
      SignupUsernameAccepted(s, Field(body, "username"), FullPattern) && SignupEmailAccepted(s, Field(body, "email"))
    ensures r.Ok? ==> r.value == (body["username"], body["email"])
    ensures r.Ok? ==> UsernameAllowed(r.value.0) && EmailAllowed(r.value.1) && !Text.IsReservedMe(r.value.0)
    ensures r.Ok? ==> !UsernameTaken(s, r.value.0) && !EmailTaken(s, r.value.1)
    ensures r.Err? ==> r.error.Keys <= {"username", "email"}
    ensures r.Err? ==>
      && ("username" in r.error <==> !SignupUsernameAccepted(s, Field(body, "username"), FullPattern))
      && ("email" in r.error <==> !SignupEmailAccepted(s, Field(body, "email")))
    ensures "username" in body && body["username"] != "" && UsernameTaken(s, body["username"]) ==>
      r.Err? && UniqueMessage in r.error["username"]
    ensures "email" in body && body["email"] != "" && EmailTaken(s, body["email"]) ==>
      r.Err? && UniqueMessage in r.error["email"]
  {
    SignupUsernameErrorsEmpty(s, Field(body, "username"), FullPattern);
    SignupEmailErrorsEmpty(s, Field(body, "email"));
    SignupCheck(s, body, FullPattern)
  }

  /** `SignupSerializer.is_valid()` as written: the pattern `^[\w.@+-]` examines only the first character. */
  function SignupValidateAsWritten(s: Store, body: Body): (r: Result<(string, string), Errors>)
    ensures r.Ok? <==>
      SignupUsernameAccepted(s, Field(body, "username"), PrefixPattern) && SignupEmailAccepted(s, Field(body, "email"))
    ensures r.Ok? ==> r.value == (body["username"], body["email"])
    ensures r.Ok? ==> Text.MatchesUsernamePrefix(r.value.0) && |r.value.0| <= MaxUsernameLength
    ensures r.Ok? ==> !UsernameTaken(s, r.value.0) && !EmailTaken(s, r.value.1)
    ensures r.Err? ==>
      && ("username" in r.error <==> !SignupUsernameAccepted(s, Field(body, "username"), PrefixPattern))
      && ("email" in r.error <==> !SignupEmailAccepted(s, Field(body, "email")))
  {
    SignupUsernameErrorsEmpty(s, Field(body, "username"), PrefixPattern);
    SignupEmailErrorsEmpty(s, Field(body, "email"));
    SignupCheck(s, body, PrefixPattern)
  }

  /** The signup check with the username pattern as written or as corrected. */
  function SignupValidateWith(s: Store, body: Body, p: UsernamePattern): Result<(string, string), Errors> {
    match p
    case PrefixPattern => SignupValidateAsWritten(s, body)
    case FullPattern => SignupValidate(s, body)
  }

  /**
   * The as-written check admits `a!`, whose `!` the user model's pattern
   * forbids, so the signup view would store a username outside the model's rules.
   */
  lemma SignupAsWrittenAdmitsMalformedUsername()
    ensures var r := SignupValidateAsWritten(EmptyStore(), map["username" := "a!", "email" := "a@example.com"]);
      r.Ok? && r.value.0 == "a!" && !UsernameAllowed(r.value.0)
    ensures SignupValidate(EmptyStore(), map["username" := "a!", "email" := "a@example.com"]).Err?
  {
    var email := "a@example.com";
    assert email[1] == '@' && email[..1] == "a" && email[2..] == "example.com";
    assert forall i :: 0 <= i < |email[2..]| ==> email[2..][i] != '@';
    assert Text.IsEmailShaped(email);
    assert !Text.IsUsernameChar("a!"[1]);
    assert Text.Lower("a!") == [Text.LowerChar('a'), Text.LowerChar('!')];
    assert !Text.IsReservedMe("a!");
  }

  // ----------------------------------------------------------------- token

  function TokenUsernameErrors(v: Option<string>): seq<string> {
    match v
    case None => [RequiredMessage]
    case Some(name) =>
      if name == "" then [BlankMessage]
      else if |name| > MaxUsernameLength then [MaxLengthMessage(MaxUsernameLength)]
      else []
  }

  function TokenCodeErrors(v: Option<string>): seq<string> {
    match v
    case None => [RequiredMessage]
    case Some(code) => if code == "" then [BlankMessage] else []
  }

  /** `TokenSerializer.is_valid()`: both fields present and non-blank, the username at most 150 characters. */
  function TokenValidate(body: Body): (r: Result<(string, string), Errors>)
    ensures r.Ok? <==>
      && "username" in body && "confirmation_code" in body
      && 0 < |body["username"]| <= MaxUsernameLength && body["confirmation_code"] != ""
    ensures r.Ok? ==> r.value == (body["username"], body["confirmation_code"])
    ensures r.Err? ==> r.error.Keys <= {"username", "confirmation_code"}
    ensures r.Err? ==>
      && ("username" in r.error <==> !("username" in body && 0 < |body["username"]| <= MaxUsernameLength))
      && ("confirmation_code" in r.error <==> !("confirmation_code" in body && body["confirmation_code"] != ""))
  {
    var e0 := AddErrors(map[], "username",
      TokenUsernameErrors(Field(body, "username")));
    var errors := AddErrors(e0, "confirmation_code",
      TokenCodeErrors(Field(body, "confirmation_code")));
    if errors == map[] then
      assert "username" !in errors && "confirmation_code" !in errors;
      Ok((body["username"], body["confirmation_code"]))
    else Err(errors)
  }

  // ------------------------------------------------------ profile (`/me`)

  /**
   * The `role` field of the admin serializer: the choice field generated from
   * the model's choices, then `validate_role`, which accepts the same three names.
   */
  function ValidateRole(value: string): (r: Result<Role, seq<string>>)
    ensures r.Ok? <==> value == "user" || value == "moderator" || value == "admin"
    ensures r.Ok? ==> RoleName(r.value) == value
    ensures r.Err? ==> r.error == [ChoiceMessage(value)]
  {
    match ParseRole(value)
    case Some(role) => Ok(role)
    case None => Err([ChoiceMessage(value)])
  }

  predicate UsernameTakenByOther(s: Store, self: nat, name: string) {
    exists k :: k in s.users.rows && k != self && s.users.rows[k].username == name
  }

  predicate EmailTakenByOther(s: Store, self: nat, email: string) {
    exists k :: k in s.users.rows && k != self && s.users.rows[k].email == email
  }

  /** The `username` field generated from the model: not blank, then pattern, uniqueness and length. */
  function ProfileUsernameErrors(s: Store, self: nat, name: string): seq<string> {
    if name == "" then [BlankMessage]
    else
      (if Text.MatchesUsernameFull(name) then [] else [UsernameRegexMessage])
      + (if UsernameTakenByOther(s, self, name) then [UsernameUniqueMessage] else [])
      + (if |name| > MaxUsernameLength then [MaxLengthMessage(MaxUsernameLength)] else [])
  }

  /** The `email` field generated from the model: not blank, then uniqueness, length and shape. */
  function ProfileEmailErrors(s: Store, self: nat, email: string): seq<string> {
    if email == "" then [BlankMessage]
    else
      (if EmailTakenByOther(s, self, email) then [EmailUniqueMessage] else [])
      + (if |email| > MaxEmailLength then [MaxLengthMessage(MaxEmailLength)] else [])
      + (if Text.IsEmailShaped(email) then [] else [EmailMessage])
  }

  function ProfileNameErrors(name: string): seq<string> {
    if |name| > MaxNameLength then [MaxLengthMessage(MaxNameLength)] else []
  }

  function PresentErrors(data: Body, key: string, check: string -> seq<string>): seq<string> {
    if key in data then check(data[key]) else []
  }

  /** The profile rules, stated field by field for the fields the request carries. */
  predicate ProfileAccepted(s: Store, self: nat, data: Body, roleWritable: bool) {
    && ("username" in data ==> UsernameAllowed(data["username"]) && !UsernameTakenByOther(s, self, data["username"]))
    && ("email" in data ==> EmailAllowed(data["email"]) && !EmailTakenByOther(s, self, data["email"]))
    && ("first_name" in data ==> |data["first_name"]| <= MaxNameLength)
    && ("last_name" in data ==> |data["last_name"]| <= MaxNameLength)
    && (roleWritable && "role" in data ==> ParseRole(data["role"]).Some?)
  }

  /** The record after a partial update; `role` is taken from the request only when writable. */
  function ApplyProfile(u: User, data: Body, roleWritable: bool): User {
    u.(
      username := if "username" in data then data["username"] else u.username,
      email := if "email" in data then data["email"] else u.email,
      firstName := if "first_name" in data then Some(data["first_name"]) else u.firstName,
      lastName := if "last_name" in data then Some(data["last_name"]) else u.lastName,
      bio := if "bio" in data then data["bio"] else u.bio,
      role := if roleWritable && "role" in data && ParseRole(data["role"]).Some? then ParseRole(data["role"]).value else u.role)
  }

  /**
   * Partial validation of a user's own profile: by the admin serializer when
   * `roleWritable`, otherwise by the serializer whose `role` is read-only.
   */
  function ValidateProfile(s: Store, self: nat, data: Body, roleWritable: bool): (r: Result<User, Errors>)
    requires self in s.users.rows
    ensures r.Ok? <==> ProfileAccepted(s, self, data, roleWritable)
    ensures r.Ok? ==>
      var u := s.users.rows[self];
      && r.value.username == (if "username" in data then data["username"] else u.username)
      && r.value.email == (if "email" in data then data["email"] else u.email)
      && r.value.firstName == (if "first_name" in data then Some(data["first_name"]) else u.firstName)
      && r.value.lastName == (if "last_name" in data then Some(data["last_name"]) else u.lastName)
      && r.value.bio == (if "bio" in data then data["bio"] else u.bio)
      && r.value.isSuperuser == u.isSuperuser
      && r.value.confirmationCode == u.confirmationCode
    ensures r.Ok? && !(roleWritable && "role" in data) ==> r.value.role == s.users.rows[self].role
    ensures r.Ok? && roleWritable && "role" in data ==> RoleName(r.value.role) == data["role"]
    ensures r.Ok? && RecordAllowed(s.users.rows[self]) ==> RecordAllowed(r.value)
    ensures r.Err? ==> r.error.Keys <= {"username", "email", "first_name", "last_name", "role"}
    ensures r.Err? && "role" in r.error ==> roleWritable
  {
    var roleErrors := if roleWritable && "role" in data then
      match ValidateRole(data["role"]) case Ok(_) => [] case Err(e) => e
      else [];
    var e0 := AddErrors(map[], "username",
      PresentErrors(data, "username", name => ProfileUsernameErrors(s, self, name)));
    var e1 := AddErrors(e0, "email",
      PresentErrors(data, "email", email => ProfileEmailErrors(s, self, email)));
    var e2 := AddErrors(e1, "first_name",
      PresentErrors(data, "first_name", ProfileNameErrors));
    var e3 := AddErrors(e2, "last_name",
      PresentErrors(data, "last_name", ProfileNameErrors));
    var errors := AddErrors(e3, "role",
      roleErrors);
    if errors == map[] then
      assert "username" !in errors && "email" !in errors && "first_name" !in errors;
      assert "last_name" !in errors && "role" !in errors;
      Ok(ApplyProfile(s.users.rows[self], data, roleWritable))
    else Err(errors)
  }

  // ----------------------------------------------------------------- title

  /** `validate_year` of the title serializer: a future year is reported before a negative one. */
  function ValidateYear(value: int, currentYear: int): (r: Result<int, string>)
    ensures r.Ok? <==> ReviewValidators.YearValidator(value, currentYear).Ok?
    ensures r.Ok? ==> r.value == value
    ensures value > currentYear ==> r == Err(FutureYearMessage)
    ensures value <= currentYear && value < 0 ==> r == Err(NegativeYearMessage)
  {
    if value > currentYear then Err(FutureYearMessage)
    else if value < 0 then Err(NegativeYearMessage)
    else Ok(value)
  }

  /** Upper end of the `PositiveBigIntegerField` column range, which the generated field checks. */
  const MaxBigInteger: int := 9223372036854775807

  function YearMessage(value: int): string {
    "Год " + Text.IntToString(value) + " указан неправильно."
  }

  /** The decimal rendering of an integer ends in a digit. */
  lemma IntToStringEndsInDigit(n: int)
    ensures |Text.IntToString(n)| > 0 && Text.IsDigit(Text.IntToString(n)[|Text.IntToString(n)| - 1])
  {
  }

  /** The range messages end in a digit and a full stop, and differ at the word after the lead. */
  lemma RangeMessageShape(lo: int, hi: int)
    ensures |MinValueMessage(lo)| > 21 && Text.IsDigit(MinValueMessage(lo)[|MinValueMessage(lo)| - 2])
    ensures |MaxValueMessage(hi)| > 21 && Text.IsDigit(MaxValueMessage(hi)[|MaxValueMessage(hi)| - 2])
    ensures MinValueMessage(lo) != MaxValueMessage(hi)
  {
    IntToStringEndsInDigit(lo);
    IntToStringEndsInDigit(hi);
    var lead := "Ensure this value is ";
    var min := "greater" + " than or equal to " + Text.IntToString(lo);
    var max := "less" + " than or equal to " + Text.IntToString(hi);
    assert MinValueMessage(lo) == (lead + min) + ".";
    assert MaxValueMessage(hi) == (lead + max) + ".";
    assert min[|min| - 1] == Text.IntToString(lo)[|Text.IntToString(lo)| - 1];
    assert max[|max| - 1] == Text.IntToString(hi)[|Text.IntToString(hi)| - 1];
    assert |lead| == 21;
    assert MinValueMessage(lo)[21] == min[0] == 'g';
    assert MaxValueMessage(hi)[21] == max[0] == 'l';
  }

  /** The year message ends in `о.`. */
  lemma YearMessageShape(value: int)
    ensures |YearMessage(value)| > 2 && YearMessage(value)[|YearMessage(value)| - 2] == 'о'
  {
    var tail := " указан неправильно.";
    assert YearMessage(value) == ("Год " + Text.IntToString(value)) + tail;
    assert YearMessage(value)[|YearMessage(value)| - 2] == tail[|tail| - 2];
  }

  /** No field validator's message is one of `validate_year`'s, and the three differ from each other. */
  lemma YearMessagesDiffer(value: int, hi: int)
    ensures YearMessage(value) != FutureYearMessage && YearMessage(value) != NegativeYearMessage
    ensures MaxValueMessage(hi) != FutureYearMessage && MaxValueMessage(hi) != NegativeYearMessage
    ensures MinValueMessage(0) != FutureYearMessage && MinValueMessage(0) != NegativeYearMessage
    ensures MinValueMessage(0) != YearMessage(value) && MinValueMessage(0) != MaxValueMessage(hi)
    ensures MaxValueMessage(hi) != YearMessage(value)
  {
    YearMessageShape(value);
    RangeMessageShape(0, hi);
    assert FutureYearMessage[|FutureYearMessage| - 2] == 'д';
    assert NegativeYearMessage[|NegativeYearMessage| - 2] == 'м';
  }

  /**
   * The validators of the `year` field generated from the model column: the
   * model's `year_validator`, then the column range as `max_value` and
   * `min_value`. Every one runs and its message is collected.
   */
  function YearFieldErrors(value: int, currentYear: int): seq<string> {
    (if ReviewValidators.YearValidator(value, currentYear).Err? then [YearMessage(value)] else [])
    + (if value > MaxBigInteger then [MaxValueMessage(MaxBigInteger)] else [])
    + (if value < 0 then [MinValueMessage(0)] else [])
  }

  /** The messages `YearFieldErrors` collects, one per failing validator. */
  lemma YearFieldErrorsContents(value: int, currentYear: int)
    ensures YearFieldErrors(value, currentYear) == [] <==> 0 <= value <= currentYear && value <= MaxBigInteger
    ensures !(0 <= value <= currentYear) ==> YearFieldErrors(value, currentYear)[0] == YearMessage(value)
    ensures MinValueMessage(0) in YearFieldErrors(value, currentYear) <==> value < 0
    ensures FutureYearMessage !in YearFieldErrors(value, currentYear)
    ensures NegativeYearMessage !in YearFieldErrors(value, currentYear)
  {
    var year := if ReviewValidators.YearValidator(value, currentYear).Err? then [YearMessage(value)] else [];
    var max := if value > MaxBigInteger then [MaxValueMessage(MaxBigInteger)] else [];
    var min := if value < 0 then [MinValueMessage(0)] else [];
    assert YearFieldErrors(value, currentYear) == year + max + min;
    YearMessagesDiffer(value, MaxBigInteger);
  }

  /**
   * The `year` of a title request as the title serializer checks it: the
   * field validators first, then `validate_year` only when they all passed.
   * `validate_year` therefore never rejects, and its two messages never reach
   * the response.
   */
  function ValidateTitleYear(value: int, currentYear: int): (r: Result<int, seq<string>>)
    ensures r.Ok? <==> 0 <= value <= currentYear && value <= MaxBigInteger
    ensures r.Ok? ==> r.value == value
    ensures !(0 <= value <= currentYear) ==> r.Err? && |r.error| > 0 && r.error[0] == YearMessage(value)
    ensures r.Err? ==> (MinValueMessage(0) in r.error <==> value < 0)
    ensures r.Err? ==> FutureYearMessage !in r.error && NegativeYearMessage !in r.error
  {
    var errors := YearFieldErrors(value, currentYear);
    YearFieldErrorsContents(value, currentYear);
    if errors != [] then
      Err(errors)
    else
      match ValidateYear(value, currentYear)
      case Ok(accepted) => Ok(accepted)
      case Err(message) => Err([message])
  }

  // ---------------------------------------------------------------- review

  function TextErrors(v: Option<string>): seq<string> {
    match v
    case None => [RequiredMessage]
    case Some(text) => if text == "" then [BlankMessage] else []
  }

  /** The `score` integer field: presence, integer syntax, then the maximum and minimum validators. */
  function ScoreErrors(b: ScoreBounds, v: Option<string>): seq<string> {
    match v
    case None => [RequiredMessage]
    case Some(raw) =>
      match Text.ParseInt(raw)
      case None => [IntegerMessage]
      case Some(score) =>
        (if score > b.max then [MaxValueMessage(b.max)] else [])
        + (if score < b.min then [MinValueMessage(b.min)] else [])
  }

  /** Field validation of a review: `text` present and non-blank, `score` an integer within the bounds. */
  function ReviewFields(b: ScoreBounds, data: Body): (r: Result<(string, int), Errors>)
    ensures r.Ok? <==>
      && "text" in data && data["text"] != ""
      && "score" in data && Text.ParseInt(data["score"]).Some?
      && ScoreAllowed(b, Text.ParseInt(data["score"]).value)
    ensures r.Ok? ==> r.value == (data["text"], Text.ParseInt(data["score"]).value)
    ensures r.Err? ==> r.error.Keys <= {"text", "score"}
  {
    var e0 := AddErrors(map[], "text",
      TextErrors(Field(data, "text")));
    var errors := AddErrors(e0, "score",
      ScoreErrors(b, Field(data, "score")));
    if errors == map[] then
      assert "text" !in errors && "score" !in errors;
      Ok((data["text"], Text.ParseInt(data["score"]).value))
    else Err(errors)
  }

  /** Field validation of a comment: `text` present and non-blank. */
  function CommentFields(data: Body): (r: Result<string, Errors>)
    ensures r.Ok? <==> "text" in data && data["text"] != ""
    ensures r.Ok? ==> r.value == data["text"]
    ensures r.Err? ==> r.error.Keys == {"text"}
  {
    var errors := AddErrors(map[], "text",
      TextErrors(Field(data, "text")));
    if errors == map[] then
      assert "text" !in errors;
      Ok(data["text"])
    else Err(errors)
  }

  datatype ReviewCheck = ReviewAccepted | TitleMissing | AlreadyReviewed

  /**
   * `ReviewSerializer.validate`: the title must exist, and a POST is refused
   * when the author already reviewed it; other methods skip that check.
   */
  function ValidateReview(s: Store, verb: Method, author: nat, title: nat): (r: ReviewCheck)
    ensures r == TitleMissing <==> title !in s.titles.rows
    ensures r == AlreadyReviewed <==> title in s.titles.rows && verb == POST && HasReviewed(s, title, author)
    ensures verb != POST && title in s.titles.rows ==> r == ReviewAccepted
  {
    if title !in s.titles.rows then TitleMissing
    else if verb == POST && HasReviewed(s, title, author) then AlreadyReviewed
    else ReviewAccepted
  }
}

=== FILE: tables.dfy ===
/** Database tables: rows keyed by an auto-incremented primary key. */
module Tables {
  import opened Base

  datatype RawTable<T> = RawTable(rows: map<nat, T>, next: nat)

  /** Every stored key was handed out by the counter, so it lies below `next`. */
  type Table<T> = t: RawTable<T> | forall k :: k in t.rows ==> k < t.next
    witness RawTable(map[], 1)

  function Empty<T>(): Table<T> {
    RawTable(map[], 1)
  }

  /** `INSERT`: the new row takes the next key, which no row holds yet. */
  function Insert<T>(t: Table<T>, v: T): (r: (Table<T>, nat))
    ensures r.1 == t.next && r.1 !in t.rows
    ensures r.0.rows == t.rows[r.1 := v] && r.0.next == t.next + 1
  {
    (RawTable(t.rows[t.next := v], t.next + 1), t.next)
  }

  /** `UPDATE` of one existing row. */
  function Put<T>(t: Table<T>, k: nat, v: T): (r: Table<T>)
    requires k in t.rows
    ensures r.rows.Keys == t.rows.Keys && r.next == t.next
    ensures r.rows[k] == v
    ensures forall j :: j in t.rows && j != k ==> r.rows[j] == t.rows[j]
  {
    RawTable(t.rows[k := v], t.next)
  }

  /** `DELETE` of the rows whose keys are in `drop`; the counter is not rewound. */
  function Remove<T>(t: Table<T>, drop: set<nat>): (r: Table<T>)
    ensures r.rows.Keys == t.rows.Keys - drop && r.next == t.next
    ensures forall k :: k in r.rows ==> r.rows[k] == t.rows[k]
  {
    RawTable(map k | k in t.rows && k !in drop :: t.rows[k], t.next)
  }

  /** The smallest key at or above `from` whose row satisfies `p`. */
  function FirstFrom<T>(t: Table<T>, p: T -> bool, from: nat): (r: Option<nat>)
    requires from <= t.next
    ensures r.Some? ==> from <= r.value && r.value in t.rows && p(t.rows[r.value])
    ensures r.Some? ==> forall k :: from <= k < r.value && k in t.rows ==> !p(t.rows[k])
    ensures r.None? ==> forall k :: from <= k && k in t.rows ==> !p(t.rows[k])
    decreases t.next - from
  {
    if from == t.next then None
    else if from in t.rows && p(t.rows[from]) then Some(from)
    else FirstFrom(t, p, from + 1)
  }

  /** `filter(...).first()` in key order: the row found, or none when no row matches. */
  function First<T>(t: Table<T>, p: T -> bool): (r: Option<nat>)
    ensures r.Some? ==> r.value in t.rows && p(t.rows[r.value])
    ensures r.Some? ==> forall k :: k < r.value && k in t.rows ==> !p(t.rows[k])
    ensures r.None? <==> forall k :: k in t.rows ==> !p(t.rows[k])
  {
    FirstFrom(t, p, 0)
  }

  /** Two tables whose rows agree on `p` key by key give the same first match. */
  lemma {:induction false} FirstFromAgrees<T>(t: Table<T>, t': Table<T>, p: T -> bool, from: nat)
    requires from <= t.next && t.next == t'.next && t.rows.Keys == t'.rows.Keys
    requires forall k :: k in t.rows ==> p(t.rows[k]) == p(t'.rows[k])
    ensures FirstFrom(t, p, from) == FirstFrom(t', p, from)
    decreases t.next - from
  {
    if from < t.next {
      FirstFromAgrees(t, t', p, from + 1);
    }
  }
}

=== FILE: text.dfy ===
/**
 * Character classes and case folding used by the username and e-mail checks.
 * The regular-expression class `\w` and `str.lower` are approximated on ASCII.
 */
module Text {
  import opened Base

  /** The class `\w`: letters, digits and the underscore. */
  predicate IsWordChar(c: char) {
    ('a' <= c <= 'z') || ('A' <= c <= 'Z') || ('0' <= c <= '9') || c == '_'
  }

  /** The class `[\w.@+-]` shared by both username patterns. */
  predicate IsUsernameChar(c: char) {
    IsWordChar(c) || c == '.' || c == '@' || c == '+' || c == '-'
  }

  /** A search for `^[\w.@+-]`: only the first character is examined. */
  predicate MatchesUsernamePrefix(s: string) {
    |s| > 0 && IsUsernameChar(s[0])
  }

  /** A search for `^[\w.@+-]+$`: every character is in the class. */
  predicate MatchesUsernameFull(s: string) {
    |s| > 0 && forall i :: 0 <= i < |s| ==> IsUsernameChar(s[i])
  }

  function LowerChar(c: char): char {
    if 'A' <= c <= 'Z' then (c as int + 32) as char else c
  }

  /** `str.lower` on ASCII letters; every other character is kept. */
  function Lower(s: string): (r: string)
    ensures |r| == |s|
    ensures forall i :: 0 <= i < |s| ==> r[i] == LowerChar(s[i])
  {
    if |s| == 0 then [] else [LowerChar(s[0])] + Lower(s[1..])
  }

  /** The reserved username: any string whose lower-case form is `me`. */
  predicate IsReservedMe(s: string) {
    Lower(s) == "me"
  }

  /** Exactly the four spellings `me`, `Me`, `mE` and `ME` are reserved. */
  lemma ReservedMeSpellings(s: string)
    ensures IsReservedMe(s) <==> s == "me" || s == "Me" || s == "mE" || s == "ME"
  {
    if IsReservedMe(s) {
      assert |s| == 2;
      assert LowerChar(s[0]) == 'm' && LowerChar(s[1]) == 'e';
      assert s == [s[0], s[1]];
    }
    if s == "me" || s == "Me" || s == "mE" || s == "ME" {
      assert Lower(s) == [LowerChar(s[0]), LowerChar(s[1])];
    }
  }

  /**
   * The shape the e-mail validator asks for: one `@` with a non-empty local
   * part before it and a non-empty domain after it.
   */
  predicate IsEmailShaped(e: string) {
    exists i :: 0 < i < |e| - 1 && e[i] == '@' && '@' !in e[..i] && '@' !in e[i + 1..]
  }

  predicate IsDigit(c: char) {
    '0' <= c <= '9'
  }

  function DigitChar(d: nat): char
    requires d < 10
  {
    ('0' as int + d) as char
  }

  /** The value of a string of decimal digits, read left to right. */
  function DigitsValue(s: string): nat
    requires forall i :: 0 <= i < |s| ==> IsDigit(s[i])
  {
    if |s| == 0 then 0
    else
      assert IsDigit(s[|s| - 1]);
      DigitsValue(s[..|s| - 1]) * 10 + (s[|s| - 1] as int - '0' as int)
  }

  /** The decimal rendering of a natural number, without leading zeros. */
  function Decimal(n: nat): (r: string)
    ensures |r| > 0 && forall i :: 0 <= i < |r| ==> IsDigit(r[i])
  {
    if n < 10 then [DigitChar(n)] else Decimal(n / 10) + [DigitChar(n % 10)]
  }

  /** An optionally signed integer literal: `[+-]?[0-9]+`. */
  function ParseInt(s: string): (r: Option<int>)
    ensures r.Some? ==> |s| > 0
  {
    var neg := |s| > 0 && s[0] == '-';
    var digits := if |s| > 0 && (s[0] == '-' || s[0] == '+') then s[1..] else s;
    if |digits| > 0 && forall i :: 0 <= i < |digits| ==> IsDigit(digits[i]) then
      var v: int := DigitsValue(digits);
      Some(if neg then -v else v)
    else None
  }

  /** The decimal rendering of an integer, with a minus sign when negative. */
  function IntToString(n: int): string {
    if n < 0 then "-" + Decimal(-n) else Decimal(n)
  }

  lemma {:induction false} DecimalValue(n: nat)
    ensures DigitsValue(Decimal(n)) == n
    decreases n
  {
    if n >= 10 {
      var d := Decimal(n);
      assert d[..|d| - 1] == Decimal(n / 10);
      DecimalValue(n / 10);
    }
  }

  /** Rendering an integer and parsing it back gives the integer. */
  lemma ParseIntToString(n: int)
    ensures ParseInt(IntToString(n)) == Some(n)
  {
    var s := IntToString(n);
    if n < 0 {
      var d := Decimal(-n);
      DecimalValue(-n);
      assert s == "-" + d && s[0] == '-' && s[1..] == d;
    } else {
      var d := Decimal(n);
      DecimalValue(n);
      assert s == d && IsDigit(s[0]);
    }
  }
}

=== FILE: tokens.dfy ===
/**
 * The collaborators of the authentication views that the model keeps opaque:
 * the confirmation-code generator, the access-token signer and the mailer.
 */
module Tokens {
  import opened Users

  /**
   * What the code generator and the token signer are shown of a user: its key
   * and its record with the stored confirmation code blanked, since neither
   * reads that column.
   */
  datatype Principal = Principal(id: nat, account: User)

  function PrincipalOf(id: nat, u: User): Principal {
    Principal(id, u.(confirmationCode := NoneCode))
  }

  /** The stored confirmation code never reaches the generator. */
  lemma PrincipalIgnoresCode(id: nat, u: User, code: string)
    ensures PrincipalOf(id, u.(confirmationCode := code)) == PrincipalOf(id, u)
  {
  }

  /**
   * `make` and `check` stand for the token generator's `make_token` and
   * `check_token`; `mint` for signing a fresh access token for the user.
   */
  datatype TokenService = TokenService(
    make: Principal -> string,
    check: (Principal, string) -> bool,
    mint: Principal -> string)

  /** A generator whose codes are non-empty and accepted for the unchanged user they were made for. */
  ghost predicate Sound(ts: TokenService) {
    forall p :: ts.make(p) != "" && ts.check(p, ts.make(p))
  }

  /** The confirmation letter: recipient, and the username and code it quotes. */
  datatype Mail = Mail(to: string, username: string, code: string)
}

=== FILE: users.dfy ===
/** The custom user record: roles, field limits and the role predicates. */
module Users {
  import opened Base
  import Text

  const MaxUsernameLength: nat := 150
  const MaxEmailLength: nat := 254
  const MaxNameLength: nat := 150

  /** The value `confirmation_code` holds until a code is issued. */
  const NoneCode: string := "none_code"

  /** The closed set of roles a user can hold. */
  datatype Role = UserRole | ModeratorRole | AdminRole

  /** The string each role is stored as. */
  function RoleName(r: Role): string {
    match r
    case UserRole => "user"
    case ModeratorRole => "moderator"
    case AdminRole => "admin"
  }

  /** The `choices` lookup: which role, if any, a submitted string names. */
  function ParseRole(s: string): (r: Option<Role>)
    ensures r.Some? <==> s == "user" || s == "moderator" || s == "admin"
    ensures r.Some? ==> RoleName(r.value) == s
  {
    if s == "user" then Some(UserRole)
    else if s == "moderator" then Some(ModeratorRole)
    else if s == "admin" then Some(AdminRole)
    else None
  }

  /** Every role is stored as a string that parses back to it. */
  lemma RoleNameRoundTrip(r: Role)
    ensures ParseRole(RoleName(r)) == Some(r)
  {
  }

  datatype User = User(
    username: string,
    email: string,
    firstName: Option<string>,
    lastName: Option<string>,
    bio: string,
    role: Role,
    isSuperuser: bool,
    confirmationCode: string)

  predicate IsAdmin(u: User) {
    u.role == AdminRole
  }

  predicate IsModerator(u: User) {
    u.role == ModeratorRole
  }

  predicate IsUser(u: User) {
    u.role == UserRole
  }

  /** Exactly one of the three role predicates holds of any user. */
  lemma OneRolePredicate(u: User)
    ensures IsAdmin(u) || IsModerator(u) || IsUser(u)
    ensures !(IsAdmin(u) && IsModerator(u)) && !(IsAdmin(u) && IsUser(u)) && !(IsModerator(u) && IsUser(u))
  {
  }

  /** A user as `objects.create(username=…, email=…)` stores it: every other field at its default. */
  function NewUser(username: string, email: string): (u: User)
    ensures u.username == username && u.email == email
    ensures IsUser(u) && !IsAdmin(u) && !IsModerator(u) && !u.isSuperuser
    ensures u.confirmationCode == NoneCode
  {
    User(username, email, None, None, "", UserRole, false, NoneCode)
  }

  /** What the username column and its validator admit. */
  predicate UsernameAllowed(s: string) {
    |s| <= MaxUsernameLength && Text.MatchesUsernameFull(s)
  }

  /** What the e-mail column and its validator admit. */
  predicate EmailAllowed(e: string) {
    |e| <= MaxEmailLength && Text.IsEmailShaped(e)
  }

  predicate NameAllowed(n: Option<string>) {
    n.None? || |n.value| <= MaxNameLength
  }

  /** The per-record limits of the user table. */
  predicate RecordAllowed(u: User) {
    UsernameAllowed(u.username) && EmailAllowed(u.email) && NameAllowed(u.firstName) && NameAllowed(u.lastName)
  }
}

=== FILE: validators.dfy ===
/** The stand-alone reserved-username validator. */
module ApiValidators {
  import opened Base
  import Text

  const ReservedUsernameMessage: string := "username can't be 'me'."

  /** Rejects `me` in any letter case, keyed to the `username` field; returns anything else unchanged. */
  function IsUsernameNotMe(username: string): (r: Result<string, map<string, string>>)
    ensures r.Err? <==> Text.IsReservedMe(username)
    ensures r.Ok? ==> r.value == username
    ensures r.Err? ==> r.error == map["username" := ReservedUsernameMessage]
  {
    if Text.Lower(username) == "me" then Err(map["username" := ReservedUsernameMessage])
    else Ok(username)
  }

  /** The rejected inputs are exactly `me`, `Me`, `mE` and `ME`. */
  lemma IsUsernameNotMeRejects(username: string)
    ensures IsUsernameNotMe(username).Err? <==>
      username == "me" || username == "Me" || username == "mE" || username == "ME"
  {
    Text.ReservedMeSpellings(username);
  }

  /** Feeding an accepted username back in accepts it again. */
  lemma IsUsernameNotMeIdempotent(username: string)
    requires IsUsernameNotMe(username).Ok?
    ensures IsUsernameNotMe(IsUsernameNotMe(username).value) == IsUsernameNotMe(username)
  {
  }
}

/** The model-level year validator of a title. */
module ReviewValidators {
  import opened Base

  /** Accepts exactly the years from zero to the current year, both inclusive; a rejection names the year. */
  function YearValidator(value: int, currentYear: int): (r: Result<int, int>)
    ensures r.Ok? <==> 0 <= value <= currentYear
    ensures r.Ok? ==> r.value == value
    ensures r.Err? ==> r.error == value
  {
    if value < 0 || value > currentYear then Err(value) else Ok(value)
  }
}

=== FILE: views.dfy ===
/**
 * The request handlers of the core: signup, token exchange, the `/users/me`
 * profile endpoint, and review and comment creation. Each takes the store and
 * the request and returns the response together with the store afterwards.
 */
module Views {
  import opened Base
  import opened Http
  import Text
  import opened Tables
  import opened Users
  import opened Records
  import opened Database
  import opened Tokens
  import opened Serializers
  import opened Ratings

  // ---------------------------------------------------------------- signup

  datatype SignupOutcome = SignupOutcome(store: Store, response: Response, mail: Option<Mail>)

  /** The value the exact-pair lookup filters on: a missing field is looked up as `str([])`. */
  function LookupValue(body: Body, key: string): string {
    if key in body then body[key] else "[]"
  }

  /** Some user holds exactly the submitted (username, e-mail) pair. */
  predicate PairRegistered(s: Store, body: Body) {
    exists k :: k in s.users.rows
      && s.users.rows[k].username == LookupValue(body, "username")
      && s.users.rows[k].email == LookupValue(body, "email")
  }

  function SignupBody(name: string, email: string): Json {
    JObj(map["username" := JStr(name), "email" := JStr(email)])
  }

  /**
   * A registered pair is echoed back with nothing stored and no letter sent;
   * otherwise the data is checked with the username pattern `p` (as written,
   * or anchored as the user model declares it), and a validated user is
   * created with the default role, a code is made for it and stored on it,
   * and the letter carries the code while the response carries only the
   * username and the e-mail.
   */
  function Signup(s: Store, body: Body, ts: TokenService, p: UsernamePattern): (o: SignupOutcome)
    ensures PairRegistered(s, body) ==> o == SignupOutcome(s, Response(OK, Echo(body)), None)
    ensures !PairRegistered(s, body) && SignupValidateWith(s, body, p).Err? ==>
      o == SignupOutcome(s, Invalid(SignupValidateWith(s, body, p).error), None)
    ensures !PairRegistered(s, body) && SignupValidateWith(s, body, p).Ok? ==>
      var name := SignupValidateWith(s, body, p).value.0;
      var email := SignupValidateWith(s, body, p).value.1;
      var id := s.users.next;
      var code := ts.make(PrincipalOf(id, NewUser(name, email)));
      && id !in s.users.rows
      && o.store == s.(users := o.store.users)
      && o.store.users.next == id + 1
      && o.store.users.rows == s.users.rows[id := NewUser(name, email).(confirmationCode := code)]
      && o.response == Response(OK, SignupBody(name, email))
      && o.mail == Some(Mail(email, name, code))
    ensures !PairRegistered(s, body) ==> o.response.body.JObj? && o.response.body.fields.Keys <= {"username", "email"}
    ensures o.mail.Some? <==> o.store != s
  {
    if PairRegistered(s, body) then SignupOutcome(s, Response(OK, Echo(body)), None)
    else
      match SignupValidateWith(s, body, p)
      case Err(errors) => SignupOutcome(s, Invalid(errors), None)
      case Ok((name, email)) =>
        var (users, id) := Insert(s.users, NewUser(name, email));
        var created := users.rows[id];
        var code := ts.make(PrincipalOf(id, created));
        var issued := Put(users, id, created.(confirmationCode := code));
        assert issued.next != s.users.next;
        SignupOutcome(s.(users := issued), Response(OK, SignupBody(name, email)), Some(Mail(email, name, code)))
  }

  /** `str([])` is neither a valid username nor a valid e-mail. */
  lemma EmptyListTextNotAllowed()
    ensures !UsernameAllowed("[]") && !EmailAllowed("[]")
  {
    assert !Text.IsUsernameChar("[]"[0]);
    assert forall i :: 0 <= i < |"[]"| ==> "[]"[i] != '@';
  }

  /** Under the store's constraints a request missing a field never takes the echo branch. */
  lemma MissingFieldNeverEchoes(s: Store, b: ScoreBounds, body: Body)
    requires Valid(s, b)
    requires "username" !in body || "email" !in body
    ensures !PairRegistered(s, body)
  {
    EmptyListTextNotAllowed();
    forall k | k in s.users.rows
      ensures !(s.users.rows[k].username == LookupValue(body, "username")
                && s.users.rows[k].email == LookupValue(body, "email"))
    {
      assert RecordAllowed(s.users.rows[k]);
    }
  }

  /** Users added to the user table keep every reference of the other tables valid. */
  lemma UsersGrowKeepsReferences(s: Store, users: Table<User>)
    requires s.users.rows.Keys <= users.rows.Keys
    requires TitleReferencesValid(s) && ReviewReferencesValid(s) && CommentReferencesValid(s)
    ensures var s' := s.(users := users);
      TitleReferencesValid(s') && ReviewReferencesValid(s') && CommentReferencesValid(s')
  {
  }

  /** Storing an allowed record whose username and e-mail no other user holds keeps the user table valid. */
  lemma StoreUserKeepsUsersValid(users: Table<User>, users': Table<User>, id: nat, u: User)
    requires UsersValid(users) && RecordAllowed(u)
    requires users'.rows == users.rows[id := u]
    requires forall k :: k in users.rows && k != id ==>
      users.rows[k].username != u.username && users.rows[k].email != u.email
    ensures UsersValid(users')
  {
    var rows := users'.rows;
    forall i, j | i in rows && j in rows && i != j
      ensures rows[i].username != rows[j].username && rows[i].email != rows[j].email
    {
      if i == id {
        assert rows[j] == users.rows[j];
      } else if j == id {
        assert rows[i] == users.rows[i];
      } else {
        assert rows[i] == users.rows[i] && rows[j] == users.rows[j];
      }
    }
  }

  /** Signup with the anchored username pattern keeps every invariant of `Valid`. */
  lemma SignupPreservesValid(s: Store, b: ScoreBounds, body: Body, ts: TokenService)
    requires Valid(s, b)
    ensures Valid(Signup(s, body, ts, FullPattern).store, b)
  {
    var o := Signup(s, body, ts, FullPattern);
    if o.store != s {
      var name := SignupValidate(s, body).value.0;
      var email := SignupValidate(s, body).value.1;
      var id := s.users.next;
      var u := o.store.users.rows[id];
      assert !UsernameTaken(s, name) && !EmailTaken(s, email);
      assert RecordAllowed(u);
      StoreUserKeepsUsersValid(s.users, o.store.users, id, u);
      UsersGrowKeepsReferences(s, o.store.users);
    }
  }

  /**
   * Run as written, the signup view answers 200 to the username `a!`, stores
   * it and mails a code, leaving a store outside `Valid`; with the
   * anchored pattern the same request is a 400 that stores nothing.
   */
  lemma SignupAsWrittenStoresMalformedUsername(ts: TokenService, b: ScoreBounds)
    ensures var body := map["username" := "a!", "email" := "a@example.com"];
      var o := Signup(EmptyStore(), body, ts, PrefixPattern);
      && o.response.status == OK
      && o.mail.Some?
      && 1 in o.store.users.rows && o.store.users.rows[1].username == "a!"
      && !Valid(o.store, b)
    ensures var body := map["username" := "a!", "email" := "a@example.com"];
      var o := Signup(EmptyStore(), body, ts, FullPattern);
      o.response.status == BAD_REQUEST && o.store == EmptyStore() && o.mail.None?
  {
    var body := map["username" := "a!", "email" := "a@example.com"];
    Serializers.SignupAsWrittenAdmitsMalformedUsername();
    assert !PairRegistered(EmptyStore(), body);
    var o := Signup(EmptyStore(), body, ts, PrefixPattern);
    assert o.store.users.rows[1].username == "a!";
    assert !RecordAllowed(o.store.users.rows[1]);
  }

  // ----------------------------------------------------------------- token

  /** `get_object_or_404(User, username=…)`: the user holding the name, if any. */
  function UserIdByName(s: Store, name: string): (r: Option<nat>)
    ensures r.None? <==> !UsernameTaken(s, name)
    ensures r.Some? ==> r.value in s.users.rows && s.users.rows[r.value].username == name
  {
    First(s.users, (u: User) => u.username == name)
  }

  const InvalidToken: Response := Response(BAD_REQUEST, JObj(map["confirmation_code" := Strings(["Invalid token"])]))

  function TokenBody(token: string): Json {
    JObj(map["token" := JStr(token)])
  }

  /**
   * Validates the request, looks the user up by name, and answers with a fresh
   * access token exactly when the generator accepts the submitted code for that
   * user. The store is read, never written, and the stored code is not consulted.
   */
  function Token(s: Store, body: Body, ts: TokenService): (r: Response)
    ensures TokenValidate(body).Err? ==> r == Invalid(TokenValidate(body).error)
    ensures TokenValidate(body).Ok? && !UsernameTaken(s, body["username"]) ==> r == NotFound
    ensures TokenValidate(body).Ok? && UsernameTaken(s, body["username"]) ==>
      var id := UserIdByName(s, body["username"]).value;
      var p := PrincipalOf(id, s.users.rows[id]);
      r == if ts.check(p, body["confirmation_code"]) then Response(OK, TokenBody(ts.mint(p))) else InvalidToken
    ensures r.status == OK <==>
      && TokenValidate(body).Ok?
      && UsernameTaken(s, body["username"])
      && var id := UserIdByName(s, body["username"]).value;
         ts.check(PrincipalOf(id, s.users.rows[id]), body["confirmation_code"])
  {
    match TokenValidate(body)
    case Err(errors) => Invalid(errors)
    case Ok((name, code)) =>
      match UserIdByName(s, name)
      case None => NotFound
      case Some(id) =>
        var p := PrincipalOf(id, s.users.rows[id]);
        if ts.check(p, code) then Response(OK, TokenBody(ts.mint(p))) else InvalidToken
  }

  /** In a store with unique usernames the exchange answers for the one user holding the name. */
  lemma TokenForRegisteredUser(s: Store, body: Body, ts: TokenService, id: nat)
    requires UsersValid(s.users)
    requires TokenValidate(body).Ok?
    requires id in s.users.rows && s.users.rows[id].username == body["username"]
    ensures var p := PrincipalOf(id, s.users.rows[id]);
      Token(s, body, ts) ==
        if ts.check(p, body["confirmation_code"]) then Response(OK, TokenBody(ts.mint(p))) else InvalidToken
  {
    var found := UserIdByName(s, body["username"]).value;
    assert found == id;
  }

  /** Whatever the stored confirmation code of any user holds, the exchange answers the same. */
  lemma TokenIgnoresStoredCode(s: Store, body: Body, ts: TokenService, id: nat, code: string)
    requires id in s.users.rows
    ensures var s' := s.(users := Put(s.users, id, s.users.rows[id].(confirmationCode := code)));
      Token(s', body, ts) == Token(s, body, ts)
  {
    var s' := s.(users := Put(s.users, id, s.users.rows[id].(confirmationCode := code)));
    if TokenValidate(body).Ok? {
      var name := body["username"];
      var p := (u: User) => u.username == name;
      FirstFromAgrees(s.users, s'.users, p, 0);
      assert UsernameTaken(s', name) == UsernameTaken(s, name);
      if UsernameTaken(s, name) {
        var k := UserIdByName(s, name).value;
        assert UserIdByName(s', name) == UserIdByName(s, name);
        PrincipalIgnoresCode(k, s.users.rows[k], code);
      }
    }
  }

  /**
   * With a generator that accepts its own codes, the code mailed by a fresh
   * signup is exchanged for an access token for the new user.
   */
  lemma SignupThenToken(s: Store, b: ScoreBounds, body: Body, ts: TokenService)
    requires Valid(s, b) && Sound(ts)
    requires !PairRegistered(s, body) && SignupValidate(s, body).Ok?
    ensures var o := Signup(s, body, ts, FullPattern);
      var id := s.users.next;
      && o.mail.Some?
      && Token(o.store, map["username" := o.mail.value.username, "confirmation_code" := o.mail.value.code], ts)
         == Response(OK, TokenBody(ts.mint(PrincipalOf(id, o.store.users.rows[id]))))
  {
    var o := Signup(s, body, ts, FullPattern);
    var id := s.users.next;
    var name := SignupValidate(s, body).value.0;
    var email := SignupValidate(s, body).value.1;
    var p := PrincipalOf(id, NewUser(name, email));
    var u := o.store.users.rows[id];
    assert u == NewUser(name, email).(confirmationCode := ts.make(p));
    PrincipalIgnoresCode(id, NewUser(name, email), ts.make(p));
    assert PrincipalOf(id, u) == p;
    assert ts.make(p) != "" && ts.check(p, ts.make(p));
    var request := map["username" := name, "confirmation_code" := ts.make(p)];
    assert o.mail.value.username == name && o.mail.value.code == ts.make(p);
    assert UsernameAllowed(name);
    assert TokenValidate(request).Ok?;
    SignupPreservesValid(s, b, body, ts);
    TokenForRegisteredUser(o.store, request, ts, id);
  }

  // ------------------------------------------------------------ users/me

  function NullableString(v: Option<string>): Json {
    match v
    case Some(x) => JStr(x)
    case None => JNull
  }

  /** The six fields the user serializers render. */
  function Representation(u: User): Json {
    JObj(map[
      "username" := JStr(u.username),
      "email" := JStr(u.email),
      "first_name" := NullableString(u.firstName),
      "last_name" := NullableString(u.lastName),
      "bio" := JStr(u.bio),
      "role" := JStr(RoleName(u.role))])
  }

  /** Admins and superusers update their profile through the serializer whose `role` is writable. */
  predicate MayChangeRole(u: User) {
    IsAdmin(u) || u.isSuperuser
  }

  /**
   * GET validates the data and renders the caller unchanged; PATCH applies a
   * validated partial update to the caller's own record only, keeping the
   * role unless the caller is an admin or a superuser.
   */
  function Me(s: Store, requester: nat, verb: Method, data: Body): (o: (Store, Response))
    requires requester in s.users.rows
    ensures verb != PATCH ==> o.0 == s
    ensures o.0 == s.(users := o.0.users)
    ensures o.0.users.rows.Keys == s.users.rows.Keys && o.0.users.next == s.users.next
    ensures forall k :: k in s.users.rows && k != requester ==> o.0.users.rows[k] == s.users.rows[k]
    ensures verb == PATCH && !MayChangeRole(s.users.rows[requester]) ==>
      o.0.users.rows[requester].role == s.users.rows[requester].role
    ensures verb == PATCH && MayChangeRole(s.users.rows[requester]) && "role" in data && o.1.status == OK ==>
      RoleName(o.0.users.rows[requester].role) == data["role"]
    ensures verb == PATCH ==>
      (o.1.status == OK <==> ProfileAccepted(s, requester, data, MayChangeRole(s.users.rows[requester])))
    ensures verb == PATCH && o.1.status != OK ==> o.0 == s && o.1.status == BAD_REQUEST
    ensures verb == PATCH && o.1.status == OK ==>
      && o.0.users.rows[requester] == ValidateProfile(s, requester, data, MayChangeRole(s.users.rows[requester])).value
      && o.1.body == Representation(o.0.users.rows[requester])
    ensures verb == GET ==> (o.1.status == OK <==> ProfileAccepted(s, requester, data, false))
    ensures verb == GET && o.1.status == OK ==> o.1.body == Representation(s.users.rows[requester])
    ensures verb != GET && verb != PATCH ==> o.1 == MethodNotAllowed(verb)
  {
    var u := s.users.rows[requester];
    match verb
    case PATCH =>
      (match ValidateProfile(s, requester, data, MayChangeRole(u))
       case Err(errors) => (s, Invalid(errors))
       case Ok(updated) => (s.(users := Put(s.users, requester, updated)), Response(OK, Representation(updated))))
    case GET =>
      (match ValidateProfile(s, requester, data, false)
       case Err(errors) => (s, Invalid(errors))
       case Ok(_) => (s, Response(OK, Representation(u))))
    case _ => (s, MethodNotAllowed(verb))
  }

  lemma MePreservesValid(s: Store, b: ScoreBounds, requester: nat, verb: Method, data: Body)
    requires Valid(s, b) && requester in s.users.rows
    ensures Valid(Me(s, requester, verb, data).0, b)
  {
    var s' := Me(s, requester, verb, data).0;
    if s' != s {
      var u := s.users.rows[requester];
      var u' := s'.users.rows[requester];
      assert ProfileAccepted(s, requester, data, MayChangeRole(u));
      assert RecordAllowed(u');
      assert s'.users.rows == s.users.rows[requester := u'];
      forall k | k in s.users.rows && k != requester
        ensures s.users.rows[k].username != u'.username && s.users.rows[k].email != u'.email
      {
        if "username" in data {
          assert !UsernameTakenByOther(s, requester, data["username"]);
        }
        if "email" in data {
          assert !EmailTakenByOther(s, requester, data["email"]);
        }
      }
      StoreUserKeepsUsersValid(s.users, s'.users, requester, u');
      UsersGrowKeepsReferences(s, s'.users);
    }
  }

  // ------------------------------------------------------------- reviews

  function ReviewBody(id: nat, author: User, r: Review): Json {
    JObj(map[
      "id" := JInt(id),
      "author" := JStr(author.username),
      "title" := JInt(r.title),
      "text" := JStr(r.text),
      "score" := JInt(r.score)])
  }

  const DuplicateReview: Errors := map["non_field_errors" := [DuplicateReviewMessage]]

  /**
   * POST of a review on the title named by the URL: field validation, then
   * the serializer's title and duplicate checks, then an insert whose author
   * is the requester and whose title is the URL's, whatever the body says.
   */
  function CreateReview(s: Store, b: ScoreBounds, requester: nat, title: nat, data: Body): (o: (Store, Response))
    requires requester in s.users.rows
    ensures o.1.status == CREATED <==>
      ReviewFields(b, data).Ok? && title in s.titles.rows && !HasReviewed(s, title, requester)
    ensures o.1.status != CREATED ==> o.0 == s
    ensures ReviewFields(b, data).Err? ==> o.1 == Invalid(ReviewFields(b, data).error)
    ensures ReviewFields(b, data).Ok? && title !in s.titles.rows ==> o.1 == NotFound
    ensures ReviewFields(b, data).Ok? && title in s.titles.rows && HasReviewed(s, title, requester) ==>
      o.1 == Invalid(DuplicateReview)
    ensures o.1.status == CREATED ==>
      var id := s.reviews.next;
      && id !in s.reviews.rows
      && o.0 == s.(reviews := o.0.reviews)
      && o.0.reviews.next == id + 1
      && o.0.reviews.rows.Keys == s.reviews.rows.Keys + {id}
      && (forall k :: k in s.reviews.rows ==> o.0.reviews.rows[k] == s.reviews.rows[k])
      && o.0.reviews.rows[id].author == requester
      && o.0.reviews.rows[id].title == title
      && (o.0.reviews.rows[id].text, o.0.reviews.rows[id].score) == ReviewFields(b, data).value
  {
    match ReviewFields(b, data)
    case Err(errors) => (s, Invalid(errors))
    case Ok((text, score)) =>
      match ValidateReview(s, POST, requester, title)
      case TitleMissing => (s, NotFound)
      case AlreadyReviewed => (s, Invalid(DuplicateReview))
      case ReviewAccepted =>
        var review := Review(title, requester, text, score);
        var (reviews, id) := Insert(s.reviews, review);
        (s.(reviews := reviews), Response(CREATED, ReviewBody(id, s.users.rows[requester], review)))
  }

  /** `author` and `title` in the request body are read-only and change nothing. */
  lemma CreateReviewIgnoresSubmittedOwner(s: Store, b: ScoreBounds, requester: nat, title: nat, data: Body, key: string, v: string)
    requires requester in s.users.rows
    requires key == "author" || key == "title"
    ensures CreateReview(s, b, requester, title, data[key := v]) == CreateReview(s, b, requester, title, data)
  {
    assert Field(data[key := v], "text") == Field(data, "text");
    assert Field(data[key := v], "score") == Field(data, "score");
  }

  lemma CreateReviewPreservesValid(s: Store, b: ScoreBounds, requester: nat, title: nat, data: Body)
    requires Valid(s, b) && requester in s.users.rows
    ensures Valid(CreateReview(s, b, requester, title, data).0, b)
  {
    var o := CreateReview(s, b, requester, title, data);
    if o.1.status == CREATED {
      var s' := o.0;
      var id := s.reviews.next;
      var rows := s'.reviews.rows;
      assert ScoreAllowed(b, rows[id].score);
      assert ScoresValid(s'.reviews, b);
      forall i, j | i in rows && j in rows && i != j
        ensures rows[i].title != rows[j].title || rows[i].author != rows[j].author
      {
        if i == id {
          assert rows[j] == s.reviews.rows[j];
        } else if j == id {
          assert rows[i] == s.reviews.rows[i];
        }
      }
      assert OneReviewPerAuthor(s'.reviews);
      assert ReviewReferencesValid(s');
      assert CommentReferencesValid(s');
    }
  }

  /** Adding a review adds its score to its title's totals and leaves every other title's totals alone. */
  lemma {:induction false} RatingAfterInsert(s: Store, r: Review, other: nat)
    ensures var s' := s.(reviews := Insert(s.reviews, r).0);
      var before := Rating(s, r.title);
      && Rating(s', r.title) == Some(Mean(if before.Some? then before.value.sum + r.score else r.score,
                                          if before.Some? then before.value.count + 1 else 1))
      && (other != r.title ==> Rating(s', other) == Rating(s, other))
  {
    var s' := s.(reviews := Insert(s.reviews, r).0);
    var n := s.reviews.next;
    var rows, rows' := s.reviews.rows, s'.reviews.rows;
    assert rows' == rows[n := r];
    TotalsFrame(rows, rows', r.title, n);
    TotalsFrame(rows, rows', other, n);
    CountZeroSumZero(rows, r.title, n);
    assert ScoreSum(rows', r.title, n + 1) == ScoreSum(rows, r.title, n) + r.score;
    assert ReviewCount(rows', r.title, n + 1) == ReviewCount(rows, r.title, n) + 1;
    if other != r.title {
      assert ScoreSum(rows', other, n + 1) == ScoreSum(rows, other, n);
      assert ReviewCount(rows', other, n + 1) == ReviewCount(rows, other, n);
    }
  }

  /** A created review changes the rating of its own title only, by its score. */
  lemma RatingAfterCreateReview(s: Store, b: ScoreBounds, requester: nat, title: nat, data: Body, other: nat)
    requires requester in s.users.rows
    requires CreateReview(s, b, requester, title, data).1.status == CREATED
    ensures var s' := CreateReview(s, b, requester, title, data).0;
      var score := ReviewFields(b, data).value.1;
      var before := Rating(s, title);
      && Rating(s', title) == Some(Mean(if before.Some? then before.value.sum + score else score,
                                        if before.Some? then before.value.count + 1 else 1))
      && (other != title ==> Rating(s', other) == Rating(s, other))
  {
    var text := ReviewFields(b, data).value.0;
    var score := ReviewFields(b, data).value.1;
    var r := Review(title, requester, text, score);
    assert CreateReview(s, b, requester, title, data).0 == s.(reviews := Insert(s.reviews, r).0);
    RatingAfterInsert(s, r, other);
  }

  // ------------------------------------------------------------ comments

  function CommentBody(id: nat, author: User, c: Comment): Json {
    JObj(map[
      "id" := JInt(id),
      "author" := JStr(author.username),
      "review" := JInt(c.review),
      "text" := JStr(c.text)])
  }

  /**
   * POST of a comment on the review named by the URL: field validation first,
   * then the review lookup, then an insert authored by the requester.
   */
  function CreateComment(s: Store, requester: nat, review: nat, data: Body): (o: (Store, Response))
    requires requester in s.users.rows
    ensures o.1.status == CREATED <==> CommentFields(data).Ok? && review in s.reviews.rows
    ensures o.1.status != CREATED ==> o.0 == s
    ensures CommentFields(data).Err? ==> o.1 == Invalid(CommentFields(data).error)
    ensures CommentFields(data).Ok? && review !in s.reviews.rows ==> o.1 == NotFound
    ensures o.1.status == CREATED ==>
      var id := s.comments.next;
      && id !in s.comments.rows
      && o.0 == s.(comments := o.0.comments)
      && o.0.comments.next == id + 1
      && o.0.comments.rows == s.comments.rows[id := Comment(review, requester, data["text"])]
  {
    match CommentFields(data)
    case Err(errors) => (s, Invalid(errors))
    case Ok(text) =>
      if review !in s.reviews.rows then (s, NotFound)
      else
        var comment := Comment(review, requester, text);
        var (comments, id) := Insert(s.comments, comment);
        (s.(comments := comments), Response(CREATED, CommentBody(id, s.users.rows[requester], comment)))
  }

  lemma CreateCommentPreservesValid(s: Store, b: ScoreBounds, requester: nat, review: nat, data: Body)
    requires Valid(s, b) && requester in s.users.rows
    ensures Valid(CreateComment(s, requester, review, data).0, b)
  {
  }
}
